=== FILE: README.md ===
# Weekend challenge: payment server, weekly clock and config binder in Dafny

This project models the pure logic of the weekend-challenge site and proves
properties of it. There are three independent parts.

- **Payment server** (`server/payment-server.js`). The in-memory order store
  is a `map<Value, Order>`, and an order record is a `map<Field, Value>`, so
  `{ ...current, ...data }` is map union. The start-up configuration is read
  from the environment with its defaults. Four HTTP handlers are modelled as
  pure functions from the store and one request to the new store and a reply:
  - order creation, with validation, the `pending` record and the gateway call;
  - the payment notification, with its signature gate, status overwrite and
    one-time token mint;
  - the status poll, a projection that shows the token only while it is valid;
  - QR redemption, an ordered chain of refusals and then a view-counter
    increment.

  The three signed messages are modelled exactly as newline-terminated lines.
  The RSA signature, the AES-GCM decryption, `JSON.parse`/`JSON.stringify` and
  the gateway are function parameters. The clock reading, the random trade
  number suffix, the nonces and the minted token are plain parameters.
- **Weekly clock** (`assets/scripts/main.js` and `main.js`, which share the
  logic). Instants are integer milliseconds. The next Friday 12:00 UTC start,
  the 52-hour event window, the countdown parts, `pad`, the edition number,
  the navigation label and the `{{ n }}` template are modelled. So are the
  32-bit string hash and the supporter-card theme and tilt derived from it.
- **Config binder** (`assets/scripts/apply-config.js`). It models the
  dotted-path lookup into a JSON-like value and the text, HTML and attribute
  writes that the lookup drives.

The model follows the code, including where the code departs from an
idealised order lifecycle:
- Status is overwritten by every verified notification, so it is not
  monotonic. `paidAt` is re-set each time.
- A notification for an unknown trade number creates a record.
- The pending record is written before the gateway call, so a failed gateway
  call leaves it behind.
- Two orders whose trade numbers collide merge into one record.
- At the expiry instant itself, the status poll hides the token but
  redemption still accepts it.

Modules, one concept each:
- `Options`, `Text` (decimal text, split/join, padding) and `JsValue` (the
  JavaScript value, truthiness, `String(v)`, `Number(v)`) are shared helpers.
- `Template` is the global `{{ name }}` regular-expression replace, including
  the `$`-pattern expansion of a string replacement.
- `ApplyConfig`, `Weekly` and `SupporterHash` are the page scripts.
- `Signing` holds the signed messages.
- `Orders` holds the store, `updateOrder` and the configuration.
- `PaymentServer` holds the four handlers.
- `PaymentProperties` holds the properties that span several handler calls.

## Model

| member | source | states |
|---|---|---|
| Orders.UpdateOrder | server/payment-server.js:74-78 | the record under the key gains exactly the fields of `data`; every other field of that record is kept; every other trade number is untouched; the key is added when absent |
| Orders.UpdateOrderIdempotent | server/payment-server.js:74-78 | writing the same fields twice gives the same store as writing them once |
| Orders.UpdateOrderCompose | server/payment-server.js:74-78 | two writes to one record equal one write of their union, the later write winning |
| Orders.UpdateOrderCommute | server/payment-server.js:74-78 | writes to different trade numbers commute |
| Orders.NumberOr | server/payment-server.js:53-55 | an absent variable gives the fallback; an empty one gives 0, because `Number("")` is finite; a digit string gives its value; any other text gives the fallback |
| Orders.LoadConfig | server/payment-server.js:25-55 | start-up succeeds exactly when all seven required variables are present and non-empty; the app id, merchant id, API v3 key, certificate serial and notify URL are copied; the amount and the token TTL are `NumberOr` of their variables with defaults 1000 and 600000 ms; the view limit is `Math.max(1, NumberOr(QR_MAX_VIEWS, 3))`; the QR URL is optional |
| Orders.LoadConfigViewFloor | server/payment-server.js:55 | `QR_MAX_VIEWS=0` is raised to a limit of 1 |
| Orders.LoadConfigEmptyAmount | server/payment-server.js:53 | an empty `PAY_AMOUNT_FEN` yields amount 0, not the default |
| Signing.RequestMessage | server/payment-server.js:83 | the request message is the lines verb, path, timestamp, nonce and body, each newline-terminated; newline-free fields are recovered by splitting it at newlines |
| Signing.JsapiMessage | server/payment-server.js:113-114 | the payment message is the lines app id, timestamp, nonce and `prepay_id=<id>`; it splits back into those fields |
| Signing.NotifyMessage | server/payment-server.js:130 | the notification message is the lines timestamp, nonce and body; it splits back into those fields |
| Signing.UnixSeconds | server/payment-server.js:81 | the timestamp is `Math.floor(ms / 1000).toString()`: for a non-negative clock a digit string with no leading zero (only `0` itself starts with `0`) whose value is the whole seconds; for a negative clock `-` followed by the digits of the magnitude of the floored seconds, again without a leading zero |
| Signing.AuthorizationHeader | server/payment-server.js:88 | when no value holds a `"`, cutting the header at its quotes gives the scheme and `mchid=`, the merchant id, `,nonce_str=`, the nonce, `,signature=`, the signature, `,timestamp=`, the timestamp, `,serial_no=`, the serial and an empty tail, in that order |
| Signing.SignRequest | server/payment-server.js:80-90 | the returned and signed timestamp is exactly the `UnixSeconds` text of the clock reading, a digit string with no leading zero whose value is the whole seconds; the header carries the given nonce and that timestamp, and signs the five-line request message over them |
| Signing.SignJsapi | server/payment-server.js:110-127 | the parameters carry the app id, nonce, `RSA`, `prepay_id=<id>`, the timestamp as exactly the `UnixSeconds` text of the clock reading (no leading zero), and the signature of the four-line message over those same values |
| Signing.VerifyNotifySignature | server/payment-server.js:129-135 | the verdict is the certificate check on the three-line message, where a missing header reads `undefined` |
| PaymentServer.TradeNumber | server/payment-server.js:159 | the trade number starts with `wc`, and for a non-negative clock the rest is all digits |
| PaymentServer.RecordPending | server/payment-server.js:159-167 | the record is `pending` with 0 views, the configured amount, the creation time, the scene and the form data; other fields of an existing record with that number survive; no other record changes |
| PaymentServer.OrderPayload | server/payment-server.js:169-179 | the payload has exactly the keys `appid`, `mchid`, `description`, `out_trade_no`, `notify_url` and `amount`, holding the configured app id, merchant id and notify URL, the fixed description, the trade number and the amount in CNY fen; it has a `payer` exactly for a `jsapi` order, and that payer is `{ openid }` from the request body |
| PaymentServer.OrderCall | server/payment-server.js:92-107 | the gateway call is a `POST` to the `jsapi` or `native` path according to the scene, carrying the order payload, and its `Authorization` header is the one `signRequest` builds over that verb, path and serialised payload |
| PaymentServer.CreateOrder | server/payment-server.js:149-192 | a 400 reply exactly when validation fails, with the store untouched and the right message; otherwise the pending record is stored whatever the gateway does; `order_failed` exactly when the gateway gives no usable answer; the `jsapi` reply carries the payment parameters `signJsapi` builds for the returned prepay id (app id, timestamp, nonce, package, `RSA`, signature), and the `native` reply the code URL |
| PaymentServer.Payload | server/payment-server.js:206-208 | a payment result is obtained exactly when the body parses to a value other than `null`, its `resource` is an object, and that resource decrypts to something other than `null` or `undefined`; it is that decrypted value. A missing, `null` or non-object `resource` makes `decryptResource` throw before any decryption |
| PaymentServer.NotifyUpdates | server/payment-server.js:210-220 | the update always sets status, transaction id, serial and payment time; it adds token, expiry `now + TTL` and 0 views exactly when the trade succeeded and the record has no token |
| PaymentServer.RecordNotification | server/payment-server.js:208-221 | the record under `out_trade_no` is created if absent; it takes the new status, transaction id, serial and payment time; the token fields are minted only under the mint condition and are otherwise kept; form data, scene, amount and creation time are kept; other records are unchanged |
| PaymentServer.Notify | server/payment-server.js:194-228 | 401 exactly when the signature check fails; a throwing check, or a valid signature whose body does not parse or decrypt, gives 500; in all of these the store is unchanged; acknowledgement happens exactly when the signature is valid and the payload decrypts, and then the record is updated as `RecordNotification` states |
| PaymentServer.StatusOf | server/payment-server.js:230-246 | 404 exactly for an unknown trade number; the projection copies status, transaction id, amount and scene; the token and expiry are shown exactly when the status is `SUCCESS`, the token is truthy, and the expiry is absent or strictly after now |
| PaymentServer.CountView | server/payment-server.js:268 | the view count goes up by exactly one, and nothing else in the store changes |
| PaymentServer.Redeem | server/payment-server.js:248-274 | the refusals come in the source's order, each stated as an if-and-only-if: not found, not paid, token invalid, expired (strictly before now), QR not configured, view limit; a refusal leaves the store unchanged; a grant returns the QR URL, the expiry and `maxViews - views - 1` remaining, and counts one view |
| PaymentServer.HttpStatus | server/payment-server.js:252-266 | a refusal of redemption answers 404 exactly when the order is not found, 429 exactly at the view limit, 500 exactly when no QR URL is configured, and 403 exactly for not paid, an invalid token or an expired token |
| PaymentProperties.EmptyStoreInvariant | server/payment-server.js:68 | the empty store satisfies the store invariant |
| PaymentProperties.CreateOrderKeepsInvariant | server/payment-server.js:149-192 | order creation keeps every view count within `[0, maxViews]` and every token a 24-digit hex string |
| PaymentProperties.NotifyKeepsInvariant | server/payment-server.js:194-228 | notifications keep the same invariant |
| PaymentProperties.RedeemKeepsInvariant | server/payment-server.js:248-274 | redemption keeps the store invariant (view counts within the limit, tokens well-formed), adds or removes no trade number, and leaves every token and expiry as it was |
| PaymentProperties.Delivered | server/payment-server.js:206-223 | a verified, decrypting notification for trade `key` in state `state` is acknowledged; it sets status and payment time, mints only when the state is `SUCCESS` and there is no token, and keeps the other fields |
| PaymentProperties.DuplicateSuccessMintsOnce | server/payment-server.js:216-221 | a second `SUCCESS` notification keeps the first token, expiry and view count, while status and `paidAt` follow the latest one |
| PaymentProperties.LaterNotificationRevokes | server/payment-server.js:210-214 | a later non-`SUCCESS` notification overwrites the status, hides the token from the poll, and makes redemption answer `not_paid` |
| PaymentProperties.NotifyUnknownCreates | server/payment-server.js:209-221 | a notification for an unseen trade number creates a record with no form data, amount or creation time; a token is minted there exactly when the state is `SUCCESS` |
| PaymentProperties.CreatedOrderIsPending | server/payment-server.js:160-167 | after any accepted creation, even a failed one, the poll finds the order `pending` with the configured amount and no token |
| PaymentProperties.TradeNumberCollisionRevokes | server/payment-server.js:159-167 | a creation whose trade number already exists keeps the old token, expiry and transaction id, resets views to 0, and so gets the old token refused as `not_paid` |
| PaymentProperties.TradeNumberInjective | server/payment-server.js:159 | trade numbers from clock readings of equal decimal width coincide only for equal readings and suffixes |
| PaymentProperties.TradeNumberCollision | server/payment-server.js:159 | clock 1 with suffix 23 and clock 12 with suffix 3 both give `wc123` |
| PaymentProperties.ExpiryBoundaryAsymmetric | server/payment-server.js:241-258 | when `now` equals the expiry, the poll hides the token but redemption grants |
| PaymentProperties.PaidOrderRedeemable | server/payment-server.js:216-272 | after a minting `SUCCESS` notification, the poll shows the fresh token with expiry `now + TTL`, and redemption grants it with `maxViews - 1` views left |
| PaymentProperties.FreshTokenUsable | server/payment-server.js:241-272 | a paid record whose token has never been viewed and expires after now is shown and granted |
| PaymentProperties.RedeemUnderLimit | server/payment-server.js:264-272 | below the limit, redemption grants and leaves the record redeemable with one more view and the same expiry |
| PaymentProperties.RedeemAtLimit | server/payment-server.js:264-267 | at the limit, redemption answers `token_view_limit` and changes nothing |
| PaymentProperties.RedemptionBudget | server/payment-server.js:248-274 | `n` redemptions in a row with `v` views used answer with `maxViews - v - 1, …, 0` views left, then `token_view_limit` on every later call |
| Weekly.StartInstantsAreWeekly | assets/scripts/main.js:35-37 | Friday 12:00 UTC instants are exactly the whole weeks before and after the first edition |
| Weekly.UpcomingStart | assets/scripts/main.js:71-85 | the upcoming start is a Friday 12:00:00.000 UTC instant strictly after now, at most a week ahead, and the previous start is not after now (the same function is at main.js:70-84) |
| Weekly.UpcomingStartUnique | assets/scripts/main.js:71-85 | the upcoming start is the only start instant in the week that ends with it |
| Weekly.GetWindow | assets/scripts/main.js:87-96 | the window lasts 52 hours; it is running exactly when now lies in `[upcoming - 7d, upcoming - 7d + 52h)`, and is otherwise the upcoming edition, which starts after now (main.js:86-95) |
| Weekly.RunningWhileInsideAnEdition | assets/scripts/main.js:87-96 | within 52 hours of any start instant, the window is that edition, running |
| Weekly.UpcomingOutsideEditions | assets/scripts/main.js:87-96 | an upcoming window means now is inside no edition, and its start is the first start after now |
| Weekly.JsRem | assets/scripts/main.js:132-134 | JavaScript's `%` equals the mathematical remainder for a non-negative dividend, and for a negative dividend is the truncated remainder `a - b * trunc(a / b)`, which lies in `(-b, 0]` |
| Weekly.Decompose | assets/scripts/main.js:130-134 | for `diff >= 0`: days are non-negative, hours < 24, minutes and seconds < 60, and the parts recompose to `diff` truncated to whole seconds; for negative `diff` all parts are 0 (main.js:111-115) |
| Weekly.RecomposeParts | assets/scripts/main.js:131-134 | the floor divisions and remainders recompose to `diff - diff % 1000` |
| Weekly.Update | assets/scripts/main.js:120-134 | the window is the one for the first clock reading; the countdown target is its end while running and its start while upcoming, and lies strictly after now; the parts are bounded and recompose to the remaining time; the edition is the number of the window's start, at least 1 (main.js:101-115) |
| Weekly.UpdateIgnoresSecondReading | assets/scripts/main.js:125-128 | the clock re-read never changes the result, because the first target is already in the future (main.js:106-109) |
| Weekly.Pad | assets/scripts/main.js:98-100 | the padded text is the decimal digits of `n` left-padded with `0` to length at least 2, unchanged from 10 up, and reads back as `n` (main.js:97-99) |
| Weekly.Edition | assets/scripts/main.js:149 | the edition is at least 1: it is `weeks since the first start + 1` from the first edition on, and exactly 1 for every start before it, as `Math.max(1, …)` gives (main.js:130) |
| Weekly.EditionCountsWeeks | assets/scripts/main.js:149 | the edition `k` weeks after the first is number `k + 1` |
| Weekly.EditionNextWeek | assets/scripts/main.js:149 | consecutive editions have consecutive numbers |
| Weekly.NavText | main.js:130-133 | the label is ` · 第`, then the edition's decimal digits, then `期` |
| Weekly.ApplyEditionTemplate | assets/scripts/main.js:102-108 | a node without a template, or with an empty one, is left alone; otherwise every `{{ n }}` becomes the edition's digits |
| Weekly.EditionTemplateFills | assets/scripts/main.js:102-108 | in a template of slots (`{{`, blanks, the name, blanks, `}}`) and literals in which no `{` starts `{{` and none ends in `{`, every slot gets the edition's digits and all other text is kept |
| Template.Expand | assets/scripts/apply-config.js:16 | a replacement without `$` is inserted unchanged |
| Template.MatchLen | assets/scripts/main.js:102 | a match of the placeholder pattern begins with `{{`, ends with `}}` and is at least `{{` + name + `}}` long; no match starts anywhere but at a `{` |
| Template.ScanFrom | assets/scripts/apply-config.js:16 | the left-to-right scan of the global replace, with the text before the cursor kept for `` $` ``, inserts a `$`-free replacement verbatim at every match, as the reference replace does |
| Template.ReplaceAsWritten | assets/scripts/main.js:108 | the global replace as ECMAScript runs it agrees with the verbatim replace whenever the replacement has no `$` |
| Template.MatchLenSound | assets/scripts/main.js:102 | whatever the matcher accepts is `{{`, a run of `\s`, the name, a run of `\s` and `}}`, and nothing else |
| Template.MatchPlaceholder | assets/scripts/main.js:102 | `{{`, any `\s` run, the name, any `\s` run and `}}` are matched in full |
| Template.Replace | assets/scripts/apply-config.js:16 | text without `{` passes through the replace unchanged |
| Template.ReplaceLiteral | assets/scripts/apply-config.js:16 | a prefix in which no `{` starts `{{` and which does not end in `{` cannot hold a match, so it is copied and the replace continues after it |
| Template.ReplaceRendered | assets/scripts/apply-config.js:16 | replacing in a template of slots (`{{`, blanks, the name, blanks, `}}`) and literals in which no `{` starts `{{` and none ends in `{`, yields the template with every slot filled by the value and all other text kept |
| ApplyConfig.RootConfig | assets/scripts/apply-config.js:3 | the configuration is the injected object when truthy, otherwise an empty object |
| ApplyConfig.GetValue | assets/scripts/apply-config.js:5-8 | an absent or empty path gives `undefined`; otherwise the dot-separated segments are followed in order |
| ApplyConfig.Step | assets/scripts/apply-config.js:7 | one reduce step gives the property `acc[key]` of a truthy accumulator and `undefined` for a falsy one |
| ApplyConfig.Walk | assets/scripts/apply-config.js:7 | once the lookup reaches `undefined` it stays there, and a falsy value with a segment left to follow gives `undefined` |
| ApplyConfig.WalkMissing | assets/scripts/apply-config.js:7 | a missing segment key makes the whole lookup `undefined` |
| ApplyConfig.WalkAppend | assets/scripts/apply-config.js:7 | following `ks1 + ks2` is following `ks1`, then `ks2` from where it ended |
| ApplyConfig.GetValueSingleKey | assets/scripts/apply-config.js:7 | a one-segment path returns `config[key]` whenever that key is defined |
| ApplyConfig.GetValueNested | assets/scripts/apply-config.js:5-8 | looking up `head.tail` is looking up `tail` inside the value `head` names |
| ApplyConfig.ApplyText | assets/scripts/apply-config.js:10-20 | an undefined value leaves the text; with no template the text is `String(value)`; with a template and no `$` in the value, every `{{ value }}` is replaced by it |
| ApplyConfig.ApplyTextDollarPattern | assets/scripts/apply-config.js:16 | for the value `$&` the template `{{value}}` is written back unchanged instead of becoming `$&` |
| ApplyConfig.ApplyTextLiteral | assets/scripts/apply-config.js:10-20 | the intended write: an undefined value leaves the text, and with no template the text is `String(value)` |
| ApplyConfig.ApplyTextLiteralFills | assets/scripts/apply-config.js:15-16 | in a template of slots (`{{`, blanks, the name, blanks, `}}`) and literals in which no `{` starts `{{` and none ends in `{`, every slot holds `String(value)` verbatim and all other text is kept |
| ApplyConfig.ApplyAttrIdempotent | assets/scripts/apply-config.js:22-27 | binding an attribute twice leaves the node as binding it once |
| ApplyConfig.ApplyHtml | assets/scripts/apply-config.js:30-34 | `innerHTML` becomes `String(value)` when the value is defined, and is untouched otherwise |
| ApplyConfig.ApplyAttr | assets/scripts/apply-config.js:22-27 | an undefined value leaves the attributes; otherwise the attribute is set to `String(value)` and every other attribute is kept |
| SupporterHash.ToInt32 | assets/scripts/main.js:228 | the bitwise-or with 0 wraps into `[-2^31, 2^31)`, agrees with its input modulo 2^32, and fixes values already in range |
| SupporterHash.Step | assets/scripts/main.js:227-228 | one loop step, `(hash << 5) - hash + unit` then `\| 0`, is `31 * hash + unit` wrapped to a signed 32-bit integer |
| SupporterHash.Fold | assets/scripts/main.js:226-229 | the loop over no units leaves the hash as it was; after at least one step the hash is a signed 32-bit integer |
| SupporterHash.FoldIsWrappedPoly | assets/scripts/main.js:225-229 | the wrapped loop equals the unwrapped polynomial wrapped once at the end |
| SupporterHash.Utf16 | assets/scripts/main.js:227 | a character up to U+FFFF is its own code unit; one above U+FFFF becomes a high surrogate in `[D800, DC00)` and a low surrogate in `[DC00, E000)` that decode back to it |
| SupporterHash.CodeUnits | assets/scripts/main.js:226-227 | the indices `charCodeAt` walks are the UTF-16 code units of the string: a one-character string gives that character's encoding; a string with no character above U+FFFF gives one unit per character equal to its code point; every unit is below 2^16 |
| SupporterHash.CodeUnitsAppend | assets/scripts/main.js:223-227 | the code units of `a + b` are those of `a` followed by those of `b`, so the template string `${name}${seed}` is hashed over the units of each part in turn |
| SupporterHash.HashValue | assets/scripts/main.js:223-231 | the hash lies in `[0, 2^31]` and is the absolute value of the 32-bit-wrapped polynomial over the code units of `name + seed` |
| SupporterHash.ThemeFor | assets/scripts/main.js:233-235 | the theme is one of the eight fruit themes |
| SupporterHash.RotationFor | assets/scripts/main.js:237-239 | the tilt lies in `[-30, 29]` degrees |

## Left out

- Cryptography: RSA-SHA256 signing and verification (RSASSA-PKCS1-v1_5, section 8.2 of RFC 8017) and AES-256-GCM decryption are function parameters. Only the messages that go into them are modelled. Before decryption the model checks that `resource` is an object. What happens when an object resource lacks `nonce`, `tag` or `ciphertext` is left to the decryption parameter.
- `JSON.parse`, `JSON.stringify`, the axios gateway call and its 8-second timeout are function parameters. A thrown error is `None`.
- `crypto.randomBytes`, `Math.random` and `Date.now` are parameters. Each handler reads the clock once. The source reads it four times in order creation: for the trade number (payment-server.js:159), for `createdAt` (:165), for the request signature's timestamp (:81) and for the payment signature's timestamp (:111). It reads it twice in the notification (`paidAt` at :214 and the expiry at :218). Readings in one handler may differ by milliseconds, or, in order creation, by up to the gateway's 8-second timeout.
- Signing.SignJsapi: the payment parameters' timestamp is taken as a parameter equal to the handler's one clock reading. In the source it is read after the awaited gateway call, which may take up to its 8-second timeout, so it can be seconds later than the trade number's reading.
- Express routing, middleware and JSON responses are reduced to reply datatypes. `rawBody` is taken as a string; the non-Buffer body that would make `toString('utf8')` behave differently is not modelled.
- Concurrency: Node runs each handler's read-modify-write synchronously, so every handler is one atomic step.
- Reading the key files at start-up (`fs.readFileSync`) and the listen port are not modelled.
- Numbers are integers. Floating point, `NaN` from arithmetic and `Infinity` are not modelled.
- Orders.NumberOr: only the empty string and plain digit strings are read as numbers. Every other text (a sign, a decimal point, an exponent, hex, surrounding spaces) is treated as `NaN`, so the fallback applies where `Number()` would give a value.
- JsValue: an object's properties are its own entries only. Members inherited from `Object.prototype` (`constructor`, `__proto__`, `toString`, …) read `undefined` in the model, so a config path such as `constructor` or a request field named `__proto__` behaves differently in the source.
- JsValue: only objects have properties. The prototype properties of strings and numbers (`length`, methods) read `undefined`. Arrays, and so array query parameters, are not modelled.
- Store: keys are compared by value. The source's `Map` compares object keys by reference, so two notifications whose decrypted `out_trade_no` is an object create two separate records there, each minting its own token, while the model merges them into one record. `PaymentProperties.Delivered` and `PaymentProperties.DuplicateSuccessMintsOnce` therefore describe such keys by value.
- The status poll and redemption take the trade number from the URL as a string key. A record a notification created under a non-string `out_trade_no` is unreachable through them, as in the source.
- SupporterHash.ThemeFor: states only that the theme is one of the eight, not which one; the index is `HashValue(name, 557) % 8`.
- Date formatting (`formatRange`, `Intl.DateTimeFormat`, weekday texts), `formatAmount`/`toFixed`, supporter sorting by `localeCompare`, and all DOM, canvas and timer code are not modelled.
- The trade number is the decimal text of the clock reading followed by the suffix. A negative clock reading is modelled, but no property is stated for it.

- SupporterHash.CodeUnits: a string is a sequence of Unicode scalar values, so a JavaScript string holding a lone surrogate code unit cannot be expressed.
- Template.ReplaceRendered: the segment model requires every literal to contain no `{` that starts `{{` and not to end in `{`. A template with a stray `{{`, such as one holding a second placeholder `{{ m }}`, is outside this lemma; `Template.Replace` and `Template.ReplaceAsWritten` still model it.
- Weekly.EditionTemplateFills: inherits the same restriction on literals from `Template.ReplaceRendered`.
- ApplyConfig.ApplyTextLiteralFills: inherits the same restriction on literals from `Template.ReplaceRendered`.

## Findings

| source | as written | input that shows it | evidently intended | confidence | as-written member | corrected member |
|---|---|---|---|---|---|---|
| assets/scripts/apply-config.js:16 | `template.replace(regex, String(value))` passes the value as a replacement pattern, so `$&`, `$$`, `` $` `` and `$'` in a config value are expanded | config `{ x: "$&" }`, template `{{value}}`: the page shows `{{value}}` | every `{{ value }}` shows `String(value)` verbatim | not executed | ApplyConfig.ApplyTextDollarPattern | ApplyConfig.ApplyTextLiteralFills |

=== FILE: apply_config.dfy ===
/** The event-config binder of the static pages: a dotted-path lookup into the
    injected configuration object, and the text, HTML and attribute writes it
    drives.  Nodes are reduced to the strings the binder reads and writes. */
module ApplyConfig {
  import opened Options
  import opened Text
  import opened JsValue
  import Template

  /** `window.__EVENT_CONFIG__ || {}`. */
  function RootConfig(injected: Value): (c: Value)
    ensures Truthy(c)
    ensures Truthy(injected) ==> c == injected
    ensures !Truthy(injected) ==> c == Obj(map[])
  {
    if Truthy(injected) then injected else Obj(map[])
  }

  /** One step of the `reduce`: `acc && acc[key] !== undefined ? acc[key] : undefined`,
      which is simply `acc[key]` for a truthy `acc`. */
  function Step(acc: Value, key: string): (r: Value)
    ensures Truthy(acc) ==> r == Prop(acc, key)
    ensures !Truthy(acc) ==> r == Undefined
  {
    if Truthy(acc) && Prop(acc, key) != Undefined then Prop(acc, key) else Undefined
  }

  /** The `reduce` over the path segments, left to right.  Once it reaches
      `undefined` it stays there, and a falsy value with a segment left to
      follow gives `undefined`. */
  function Walk(acc: Value, keys: seq<string>): (r: Value)
    ensures acc == Undefined ==> r == Undefined
    ensures !Truthy(acc) && |keys| > 0 ==> r == Undefined
    decreases |keys|
  {
    if |keys| == 0 then acc else Walk(Step(acc, keys[0]), keys[1..])
  }

  /** `getValue(path)`: an absent (`null`) or empty path gives `undefined`;
      otherwise the segments of `path.split('.')` are followed in order. */
  function GetValue(config: Value, path: Option<string>): (r: Value)
    ensures path.None? || path == Some("") ==> r == Undefined
    ensures path.Some? && path.value != "" ==> r == Walk(config, Split(path.value, '.'))
  {
    if path.None? || path.value == "" then Undefined
    else Walk(config, Split(path.value, '.'))
  }

  /** A segment the current value lacks makes the whole lookup `undefined`. */
  lemma WalkMissing(acc: Value, key: string, rest: seq<string>)
    requires Prop(acc, key) == Undefined
    ensures Walk(acc, [key] + rest) == Undefined
  {
    assert ([key] + rest)[1..] == rest;
  }

  /** Following `ks1 + ks2` is following `ks1`, then `ks2` from where it ended. */
  lemma {:induction false} WalkAppend(acc: Value, ks1: seq<string>, ks2: seq<string>)
    ensures Walk(acc, ks1 + ks2) == Walk(Walk(acc, ks1), ks2)
    decreases |ks1|
  {
    if |ks1| == 0 {
      assert ks1 + ks2 == ks2;
    } else {
      assert (ks1 + ks2)[0] == ks1[0];
      assert (ks1 + ks2)[1..] == ks1[1..] + ks2;
      WalkAppend(Step(acc, ks1[0]), ks1[1..], ks2);
    }
  }

  /** A one-segment path reads the key of the configuration whenever it is defined. */
  lemma GetValueSingleKey(config: Value, key: string)
    requires key != "" && '.' !in key
    requires config.Obj? && key in config.props && config.props[key] != Undefined
    ensures GetValue(config, Some(key)) == config.props[key]
  {
    assert Join([key], '.') == key;
    SplitJoin([key], '.');
    assert Split(key, '.') == [key];
    assert Walk(config, [key]) == Walk(Step(config, key), []);
  }

  /** The lookup of `head.tail` is the lookup of `tail` inside the value `head` names. */
  lemma GetValueNested(config: Value, head: string, tail: string)
    requires head != ""
    ensures GetValue(config, Some(head + "." + tail)) == Walk(GetValue(config, Some(head)), Split(tail, '.'))
  {
    SplitAround(head, tail, '.');
    WalkAppend(config, Split(head, '.'), Split(tail, '.'));
  }

  // ---------------------------------------------------------------------------
  // Writes into the page

  /** The text `applyText` writes into a node whose current text is `current`,
      exactly as written: the template goes through `String.prototype.replace`
      with `String(value)` as a replacement pattern. */
  function ApplyText(config: Value, path: Option<string>, template: Option<string>, current: string): (r: string)
    ensures GetValue(config, path) == Undefined ==> r == current
    ensures GetValue(config, path) != Undefined && (template.None? || template.value == "") ==>
              r == ToDisplayString(GetValue(config, path))
    ensures GetValue(config, path) != Undefined && template.Some? && template.value != ""
              && '$' !in ToDisplayString(GetValue(config, path)) ==>
              r == Template.Replace(template.value, "value", ToDisplayString(GetValue(config, path)))
  {
    var value := GetValue(config, path);
    if value == Undefined then current
    else if template.Some? && template.value != "" then
      Template.ReplaceAsWritten(template.value, "value", ToDisplayString(value))
    else ToDisplayString(value)
  }

  /** `applyText` as intended: `String(value)` is put in verbatim at every
      `{{ value }}`. */
  function ApplyTextLiteral(config: Value, path: Option<string>, template: Option<string>, current: string): (r: string)
    ensures GetValue(config, path) == Undefined ==> r == current
    ensures GetValue(config, path) != Undefined && (template.None? || template.value == "") ==>
              r == ToDisplayString(GetValue(config, path))
  {
    var value := GetValue(config, path);
    if value == Undefined then current
    else if template.Some? && template.value != "" then
      Template.Replace(template.value, "value", ToDisplayString(value))
    else ToDisplayString(value)
  }

  /** With a well-formed template, the intended `applyText` fills every slot with
      `String(value)` and keeps every other character. */
  lemma ApplyTextLiteralFills(config: Value, path: Option<string>, segs: seq<Template.Segment>, current: string)
    requires Template.WellFormed(segs)
    requires Template.Render(segs, "value") != ""
    requires GetValue(config, path) != Undefined
    ensures ApplyTextLiteral(config, path, Some(Template.Render(segs, "value")), current)
            == Template.Fill(segs, ToDisplayString(GetValue(config, path)))
  {
    Template.ReplaceRendered(segs, "value", ToDisplayString(GetValue(config, path)));
  }

  /** A replacement containing `$&` is not inserted verbatim: for the value
      `"$&"` the as-written write reproduces the placeholder itself. */
  lemma ApplyTextDollarPattern()
    ensures ApplyText(Obj(map["x" := Str("$&")]), Some("x"), Some("{{value}}"), "")
            == "{{value}}"
    ensures ApplyTextLiteral(Obj(map["x" := Str("$&")]), Some("x"), Some("{{value}}"), "")
            == "$&"
  {
    var config := Obj(map["x" := Str("$&")]);
    GetValueSingleKey(config, "x");
    Template.AmpersandEchoesMatch();
    Template.ReplaceFillsSlot();
  }

  /** The `data-config-html` write: `innerHTML = String(value)` when defined. */
  function ApplyHtml(config: Value, path: Option<string>, current: string): (r: string)
    ensures GetValue(config, path) == Undefined ==> r == current
    ensures GetValue(config, path) != Undefined ==> r == ToDisplayString(GetValue(config, path))
  {
    var value := GetValue(config, path);
    if value != Undefined then ToDisplayString(value) else current
  }

  /** `applyAttr`: the node's attributes after setting `attr` from the path in
      its data attribute, or untouched when the value is `undefined`. */
  function ApplyAttr(config: Value, path: Option<string>, attrs: map<string, string>, attr: string): (r: map<string, string>)
    ensures GetValue(config, path) == Undefined ==> r == attrs
    ensures GetValue(config, path) != Undefined ==>
              attr in r && r[attr] == ToDisplayString(GetValue(config, path))
    ensures r.Keys == attrs.Keys + (if GetValue(config, path) == Undefined then {} else {attr})
    ensures forall a :: a in attrs && a != attr ==> a in r && r[a] == attrs[a]
  {
    var value := GetValue(config, path);
    if value == Undefined then attrs else attrs[attr := ToDisplayString(value)]
  }

  /** Binding a node twice leaves it as binding it once. */
  lemma ApplyAttrIdempotent(config: Value, path: Option<string>, attrs: map<string, string>, attr: string)
    ensures ApplyAttr(config, path, ApplyAttr(config, path, attrs, attr), attr) == ApplyAttr(config, path, attrs, attr)
  {
  }
}

=== FILE: jsvalue.dfy ===
/** The JavaScript values the pages and the server handle: JSON-like data
    plus `undefined`.  Numbers are integers (see README, "Left out"). */
module JsValue {
  import opened Options
  import opened Text

  datatype Value =
    | Undefined
    | Null
    | Bool(b: bool)
    | Num(n: int)
    | Str(s: string)
    | Obj(props: map<string, Value>)

  /** ECMAScript ToBoolean: `undefined`, `null`, `false`, `0` and `""` are falsy. */
  predicate Truthy(v: Value) {
    match v
    case Undefined => false
    case Null => false
    case Bool(b) => b
    case Num(n) => n != 0
    case Str(s) => s != ""
    case Obj(_) => true
  }

  /** `v[key]`.  Only objects have keys here; the prototype properties of
      strings, numbers and objects are not modelled. */
  function Prop(v: Value, key: string): (r: Value)
    ensures v.Obj? && key in v.props ==> r == v.props[key]
    ensures !v.Obj? || key !in v.props ==> r == Undefined
  {
    match v
    case Obj(props) => if key in props then props[key] else Undefined
    case _ => Undefined
  }

  /** `v.key` where reading a property of `undefined` or `null` throws a
      TypeError (`None`). */
  function PropOrThrow(v: Value, key: string): (r: Option<Value>)
    ensures r.None? <==> v == Undefined || v == Null
    ensures r.Some? ==> r.value == Prop(v, key)
  {
    if v == Undefined || v == Null then None else Some(Prop(v, key))
  }

  /** `String(v)`, which is also what a template literal `${v}` produces. */
  function ToDisplayString(v: Value): (r: string)
    ensures v.Str? ==> r == v.s
    ensures v.Num? && v.n >= 0 ==> AllDigits(r) && ParseDigits(r) == v.n
    ensures v.Num? && v.n < 0 ==> |r| >= 2 && r[0] == '-' && AllDigits(r[1..]) && ParseDigits(r[1..]) == -v.n
    ensures v.Num? ==> '$' !in r
  {
    match v
    case Undefined => "undefined"
    case Null => "null"
    case Bool(b) => if b then "true" else "false"
    case Num(n) =>
      IntTextFacts(n);
      IntToString(n)
    case Str(s) => s
    case Obj(_) => "[object Object]"
  }

  lemma IntTextFacts(n: int)
    ensures n >= 0 ==> AllDigits(IntToString(n)) && ParseDigits(IntToString(n)) == n
    ensures n < 0 ==> var r := IntToString(n);
      |r| >= 2 && r[0] == '-' && AllDigits(r[1..]) && ParseDigits(r[1..]) == -n
    ensures '$' !in IntToString(n)
  {
    var r := IntToString(n);
    if n >= 0 {
      ParseNatToString(n);
      NoDollarInDigits(r);
    } else {
      var d := NatToString(-n);
      ParseNatToString(-n);
      assert r[1..] == d;
      NoDollarInDigits(d);
      assert r == "-" + d;
    }
  }

  lemma NoDollarInDigits(s: string)
    requires AllDigits(s)
    ensures '$' !in s
  {
    assert forall i :: 0 <= i < |s| ==> s[i] != '$';
  }

  /** ECMAScript ToNumber, `None` standing for NaN.  Of the string forms only
      the empty string and plain digit strings are read. */
  function ToNumber(v: Value): (r: Option<int>)
    ensures v.Num? ==> r == Some(v.n)
    ensures v == Undefined ==> r.None?
  {
    match v
    case Undefined => None
    case Null => Some(0)
    case Bool(b) => Some(if b then 1 else 0)
    case Num(n) => Some(n)
    case Str(s) => if s == "" then Some(0) else if AllDigits(s) then Some(ParseDigits(s)) else None
    case Obj(_) => None
  }

  /** `v < n` for a number `n`; any comparison with NaN is false. */
  predicate LessThan(v: Value, n: int) {
    var x := ToNumber(v); x.Some? && x.value < n
  }

  /** `v > n` for a number `n`. */
  predicate GreaterThan(v: Value, n: int) {
    var x := ToNumber(v); x.Some? && x.value > n
  }
}

=== FILE: options.dfy ===
/** The optional value used wherever the source has `undefined`, a missing
    header, an absent attribute or a call that may throw. */
module Options {

  datatype Option<+T> = None | Some(value: T)
}

=== FILE: orders.dfy ===
/** The payment server's in-memory order store and its start-up configuration.
    An order record is a map from field to JavaScript value, so the object
    spread `{ ...current, ...data }` is exactly map union. */
module Orders {
  import opened Options
  import opened Text
  import opened JsValue

  /** The fields the handlers write into an order record. */
  datatype Field =
    | Status
    | FormData
    | Scene
    | AmountFen
    | CreatedAt
    | TokenViews
    | TransactionId
    | NotifySerial
    | PaidAt
    | Token
    | TokenExpiresAt

  type Order = map<Field, Value>

  /** `orders`: keyed by the trade number as the handler received it.  A
      notification's `out_trade_no` is whatever the decrypted payload holds, so
      keys are JavaScript values and not only strings. */
  type Store = map<Value, Order>

  /** `order.field`: a field the record never received reads `undefined`. */
  function Get(o: Order, f: Field): (v: Value)
    ensures f in o ==> v == o[f]
    ensures f !in o ==> v == Undefined
  {
    if f in o then o[f] else Undefined
  }

  /** `orders.get(key) || {}`: records are objects and so always truthy. */
  function Current(store: Store, key: Value): (o: Order)
    ensures key in store ==> o == store[key]
    ensures key !in store ==> o == map[]
  {
    if key in store then store[key] else map[]
  }

  /** `updateOrder(key, data)`: the record under `key` (or an empty one) with the
      fields of `data` written over it. */
  function UpdateOrder(store: Store, key: Value, data: Order): (r: Store)
    ensures r.Keys == store.Keys + {key}
    ensures forall f :: f in data ==> Get(r[key], f) == data[f]
    ensures forall f :: f !in data ==> Get(r[key], f) == Get(Current(store, key), f)
    ensures forall k :: k in store && k != key ==> r[k] == store[k]
  {
    store[key := Current(store, key) + data]
  }

  /** Writing the same fields twice is writing them once. */
  lemma UpdateOrderIdempotent(store: Store, key: Value, data: Order)
    ensures UpdateOrder(UpdateOrder(store, key, data), key, data) == UpdateOrder(store, key, data)
  {
    var once := UpdateOrder(store, key, data);
    var twice := UpdateOrder(once, key, data);
    assert twice[key] == once[key];
    assert twice == once;
  }

  /** Two writes to one record are one write of their union, the later winning. */
  lemma UpdateOrderCompose(store: Store, key: Value, d1: Order, d2: Order)
    ensures UpdateOrder(UpdateOrder(store, key, d1), key, d2) == UpdateOrder(store, key, d1 + d2)
  {
    var lhs := UpdateOrder(UpdateOrder(store, key, d1), key, d2);
    var rhs := UpdateOrder(store, key, d1 + d2);
    assert lhs[key] == rhs[key];
    assert lhs == rhs;
  }

  /** Writes to different records commute. */
  lemma UpdateOrderCommute(store: Store, k1: Value, d1: Order, k2: Value, d2: Order)
    requires k1 != k2
    ensures UpdateOrder(UpdateOrder(store, k1, d1), k2, d2) == UpdateOrder(UpdateOrder(store, k2, d2), k1, d1)
  {
    var lhs := UpdateOrder(UpdateOrder(store, k1, d1), k2, d2);
    var rhs := UpdateOrder(UpdateOrder(store, k2, d2), k1, d1);
    assert lhs.Keys == rhs.Keys;
    assert forall k :: k in lhs ==> lhs[k] == rhs[k];
  }

  // ---------------------------------------------------------------------------
  // Configuration

  /** The process environment. */
  type Env = map<string, string>

  /** The variables whose absence (or emptiness) stops the server at start-up. */
  const REQUIRED: seq<string> := [
    "WECHAT_APPID", "WECHAT_MCHID", "WECHAT_API_V3_KEY", "WECHAT_MCH_CERT_SERIAL",
    "WECHAT_PRIVATE_KEY_PATH", "WECHAT_PLATFORM_CERT_PATH", "WECHAT_NOTIFY_URL"
  ]

  const DEFAULT_AMOUNT_FEN: int := 1000
  const DEFAULT_TOKEN_TTL_MS: int := 10 * 60 * 1000
  const DEFAULT_MAX_VIEWS: int := 3

  datatype Config = Config(
    appId: string,
    mchId: string,
    apiV3Key: string,
    mchSerial: string,
    notifyUrl: string,
    amountFen: int,
    tokenTtlMs: int,
    maxViews: int,
    groupQrUrl: Option<string>)

  /** `process.env[name]` as a JavaScript value. */
  function EnvValue(env: Env, name: string): (v: Value)
    ensures name in env ==> v == Str(env[name])
    ensures name !in env ==> v == Undefined
  {
    if name in env then Str(env[name]) else Undefined
  }

  /** `Number.isFinite(Number(env[name])) ? Number(env[name]) : fallback`. */
  function NumberOr(env: Env, name: string, fallback: int): (n: int)
    ensures name !in env ==> n == fallback
    ensures name in env && env[name] == "" ==> n == 0
    ensures name in env && AllDigits(env[name]) ==> n == ParseDigits(env[name])
    ensures name in env && env[name] != "" && !AllDigits(env[name]) ==> n == fallback
  {
    var x := ToNumber(EnvValue(env, name));
    if x.Some? then x.value else fallback
  }

  predicate Present(env: Env, name: string) {
    Truthy(EnvValue(env, name))
  }

  /** The server's start-up: `None` when one of the required variables is
      missing or empty (the `invariant` calls throw), else the configuration
      with the documented defaults. */
  function LoadConfig(env: Env): (c: Option<Config>)
    ensures c.Some? <==> forall i :: 0 <= i < |REQUIRED| ==> REQUIRED[i] in env && env[REQUIRED[i]] != ""
    ensures c.Some? ==> "WECHAT_APPID" in env && "WECHAT_MCHID" in env
                        && "WECHAT_MCH_CERT_SERIAL" in env && "WECHAT_NOTIFY_URL" in env
    ensures c.Some? ==> c.value.appId == env["WECHAT_APPID"] && c.value.mchId == env["WECHAT_MCHID"]
                        && c.value.mchSerial == env["WECHAT_MCH_CERT_SERIAL"]
                        && c.value.notifyUrl == env["WECHAT_NOTIFY_URL"]
    ensures c.Some? ==> "WECHAT_API_V3_KEY" in env && c.value.apiV3Key == env["WECHAT_API_V3_KEY"]
    ensures c.Some? ==> c.value.amountFen == NumberOr(env, "PAY_AMOUNT_FEN", DEFAULT_AMOUNT_FEN)
    ensures c.Some? ==> c.value.tokenTtlMs == NumberOr(env, "QR_TOKEN_TTL_MS", DEFAULT_TOKEN_TTL_MS)
    ensures c.Some? ==> c.value.maxViews == Max(1, NumberOr(env, "QR_MAX_VIEWS", DEFAULT_MAX_VIEWS))
    ensures c.Some? ==> c.value.maxViews >= 1
    ensures c.Some? && "PAY_AMOUNT_FEN" !in env ==> c.value.amountFen == DEFAULT_AMOUNT_FEN
    ensures c.Some? && "PAY_AMOUNT_FEN" in env && AllDigits(env["PAY_AMOUNT_FEN"]) ==>
              c.value.amountFen == ParseDigits(env["PAY_AMOUNT_FEN"])
    ensures c.Some? && "QR_TOKEN_TTL_MS" !in env ==> c.value.tokenTtlMs == DEFAULT_TOKEN_TTL_MS
    ensures c.Some? && "QR_MAX_VIEWS" !in env ==> c.value.maxViews == DEFAULT_MAX_VIEWS
    ensures c.Some? && "QR_MAX_VIEWS" in env && AllDigits(env["QR_MAX_VIEWS"]) && ParseDigits(env["QR_MAX_VIEWS"]) >= 1 ==>
              c.value.maxViews == ParseDigits(env["QR_MAX_VIEWS"])
    ensures c.Some? ==> (c.value.groupQrUrl.Some? <==> "GROUP_QR_URL" in env)
    ensures c.Some? && "GROUP_QR_URL" in env ==> c.value.groupQrUrl.value == env["GROUP_QR_URL"]
  {
    if exists i :: 0 <= i < |REQUIRED| && !Present(env, REQUIRED[i]) then None
    else
      assert forall i :: 0 <= i < |REQUIRED| ==> Present(env, REQUIRED[i]);
      assert Present(env, REQUIRED[0]) && Present(env, REQUIRED[1]) && Present(env, REQUIRED[2])
             && Present(env, REQUIRED[3]) && Present(env, REQUIRED[6]);
      var views := NumberOr(env, "QR_MAX_VIEWS", DEFAULT_MAX_VIEWS);
      Some(Config(
        env["WECHAT_APPID"], env["WECHAT_MCHID"], env["WECHAT_API_V3_KEY"],
        env["WECHAT_MCH_CERT_SERIAL"], env["WECHAT_NOTIFY_URL"],
        NumberOr(env, "PAY_AMOUNT_FEN", DEFAULT_AMOUNT_FEN),
        NumberOr(env, "QR_TOKEN_TTL_MS", DEFAULT_TOKEN_TTL_MS),
        Max(1, views),
        if "GROUP_QR_URL" in env then Some(env["GROUP_QR_URL"]) else None))
  }

  /** A view limit of zero in the environment is raised to one. */
  lemma LoadConfigViewFloor(env: Env)
    requires LoadConfig(env).Some?
    requires "QR_MAX_VIEWS" in env && env["QR_MAX_VIEWS"] == "0"
    ensures LoadConfig(env).value.maxViews == 1
  {
    assert AllDigits("0");
    assert ParseDigits("0") == 0;
  }

  /** An empty `PAY_AMOUNT_FEN` is the number 0, not the default. */
  lemma LoadConfigEmptyAmount(env: Env)
    requires LoadConfig(env).Some?
    requires "PAY_AMOUNT_FEN" in env && env["PAY_AMOUNT_FEN"] == ""
    ensures LoadConfig(env).value.amountFen == 0
  {
  }
}

=== FILE: payment_properties.dfy ===
/** Properties of the payment server that span several handler calls: the
    invariants every handler keeps, the one-time token mint, and the
    behaviours the code has that an idealised design would not. */
module PaymentProperties {
  import opened Options
  import opened Text
  import opened JsValue
  import opened Signing
  import opened Orders
  import opened PaymentServer

  // ---------------------------------------------------------------------------
  // Store invariants

  /** Every view counter that is a number lies in `[0, maxViews]`. */
  predicate ViewsBounded(store: Store, maxViews: int) {
    forall k :: k in store ==> (Get(store[k], TokenViews).Num? ==> 0 <= Get(store[k], TokenViews).n <= maxViews)
  }

  /** Every truthy token is a string of 24 hexadecimal digits, as minted. */
  predicate TokensMinted(store: Store) {
    forall k :: k in store ==> (Truthy(Get(store[k], Token)) ==> Get(store[k], Token).Str? && IsHexToken(Get(store[k], Token).s))
  }

  predicate Invariant(store: Store, cfg: Config) {
    ViewsBounded(store, cfg.maxViews) && TokensMinted(store)
  }

  lemma EmptyStoreInvariant(cfg: Config)
    ensures Invariant(map[], cfg)
  {
  }

  lemma CreateOrderKeepsInvariant(store: Store, cfg: Config, body: Value, now: int, suffix: nat,
                                  requestNonce: string, payNonce: string,
                                  stringify: Value -> string, sign: string -> string,
                                  gateway: GatewayCall -> Option<Value>)
    requires suffix < 1000
    requires cfg.maxViews >= 1
    requires Invariant(store, cfg)
    ensures Invariant(CreateOrder(store, cfg, body, now, suffix, requestNonce, payNonce, stringify, sign, gateway).0, cfg)
  {
    if Acceptable(body) {
      var s := RecordPending(store, cfg, body, now, suffix);
      var key := Str(TradeNumber(now, suffix));
      assert Token !in PendingRecord(cfg, body, now);
      assert Get(s[key], Token) == Get(Current(store, key), Token);
      forall k | k in s
        ensures Get(s[k], TokenViews).Num? ==> 0 <= Get(s[k], TokenViews).n <= cfg.maxViews
        ensures Truthy(Get(s[k], Token)) ==> Get(s[k], Token).Str? && IsHexToken(Get(s[k], Token).s)
      {
        if k != key {
          assert s[k] == store[k];
        }
      }
    }
  }

  lemma NotifyKeepsInvariant(store: Store, cfg: Config, req: NotifyRequest, now: int, freshToken: string,
                             verify: (Option<string>, string) -> Verdict,
                             parse: string -> Option<Value>, decrypt: Value -> Option<Value>)
    requires IsHexToken(freshToken)
    requires cfg.maxViews >= 1
    requires Invariant(store, cfg)
    ensures Invariant(Notify(store, cfg, req, now, freshToken, verify, parse, decrypt).0, cfg)
  {
    var r := Notify(store, cfg, req, now, freshToken, verify, parse, decrypt);
    if r.1 == Acknowledged {
      var data := Payload(req.rawBody, parse, decrypt).value;
      var key := Prop(data, "out_trade_no");
      var before := Current(store, key);
      assert key in store ==> before == store[key];
      forall k | k in r.0
        ensures Get(r.0[k], TokenViews).Num? ==> 0 <= Get(r.0[k], TokenViews).n <= cfg.maxViews
        ensures Truthy(Get(r.0[k], Token)) ==> Get(r.0[k], Token).Str? && IsHexToken(Get(r.0[k], Token).s)
      {
        if k != key {
          assert r.0[k] == store[k];
        }
      }
    }
  }

  lemma RedeemKeepsInvariant(store: Store, cfg: Config, tradeNo: string, token: Value, now: int)
    requires Invariant(store, cfg)
    ensures Invariant(Redeem(store, cfg, tradeNo, token, now).0, cfg)
    ensures Redeem(store, cfg, tradeNo, token, now).0.Keys == store.Keys
    ensures forall k :: k in store ==>
              && Get(Redeem(store, cfg, tradeNo, token, now).0[k], Token) == Get(store[k], Token)
              && Get(Redeem(store, cfg, tradeNo, token, now).0[k], TokenExpiresAt) == Get(store[k], TokenExpiresAt)
  {
    var r := Redeem(store, cfg, tradeNo, token, now);
    if r.1.Granted? {
      var key := Str(tradeNo);
      forall k | k in r.0
        ensures Get(r.0[k], TokenViews).Num? ==> 0 <= Get(r.0[k], TokenViews).n <= cfg.maxViews
        ensures Truthy(Get(r.0[k], Token)) ==> Get(r.0[k], Token).Str? && IsHexToken(Get(r.0[k], Token).s)
        ensures Get(r.0[k], Token) == Get(store[k], Token)
        ensures Get(r.0[k], TokenExpiresAt) == Get(store[k], TokenExpiresAt)
      {
        if k != key {
          assert r.0[k] == store[k];
        }
      }
    }
  }

  // ---------------------------------------------------------------------------
  // Notifications

  /** The notification `req` passes the signature check and decrypts to a
      payment result for trade `key` in state `state`. */
  predicate Delivers(req: NotifyRequest, verify: (Option<string>, string) -> Verdict,
                     parse: string -> Option<Value>, decrypt: Value -> Option<Value>,
                     key: Value, state: Value) {
    && NotifyVerdict(req, verify) == Valid
    && Payload(req.rawBody, parse, decrypt).Some?
    && Prop(Payload(req.rawBody, parse, decrypt).value, "out_trade_no") == key
    && Prop(Payload(req.rawBody, parse, decrypt).value, "trade_state") == state
  }

  /** What a delivered notification does to the record of its trade, stated in
      terms of the trade number and the state it reports. */
  lemma Delivered(store: Store, cfg: Config, req: NotifyRequest, now: int, freshToken: string,
                  verify: (Option<string>, string) -> Verdict,
                  parse: string -> Option<Value>, decrypt: Value -> Option<Value>,
                  key: Value, state: Value) returns (s: Store)
    requires IsHexToken(freshToken)
    requires Delivers(req, verify, parse, decrypt, key, state)
    ensures Notify(store, cfg, req, now, freshToken, verify, parse, decrypt) == (s, Acknowledged)
    ensures s.Keys == store.Keys + {key}
    ensures forall k :: k in store && k != key ==> s[k] == store[k]
    ensures Get(s[key], Status) == state && Get(s[key], PaidAt) == Num(now)
    ensures state == SUCCESS && !Truthy(Get(Current(store, key), Token)) ==>
              && Get(s[key], Token) == Str(freshToken)
              && Get(s[key], TokenExpiresAt) == Num(now + cfg.tokenTtlMs)
              && Get(s[key], TokenViews) == Num(0)
    ensures state != SUCCESS || Truthy(Get(Current(store, key), Token)) ==>
              && Get(s[key], Token) == Get(Current(store, key), Token)
              && Get(s[key], TokenExpiresAt) == Get(Current(store, key), TokenExpiresAt)
              && Get(s[key], TokenViews) == Get(Current(store, key), TokenViews)
    ensures Get(s[key], FormData) == Get(Current(store, key), FormData)
    ensures Get(s[key], AmountFen) == Get(Current(store, key), AmountFen)
    ensures Get(s[key], CreatedAt) == Get(Current(store, key), CreatedAt)
  {
    var data := Payload(req.rawBody, parse, decrypt).value;
    s := RecordNotification(store, cfg, data, HeaderValue(req.serial), now, freshToken);
  }

  /** A repeated `SUCCESS` notification keeps the token, expiry and view count
      the first one minted, while `status` and `paidAt` follow the latest. */
  lemma DuplicateSuccessMintsOnce(store: Store, cfg: Config, key: Value,
                                  req1: NotifyRequest, now1: int, token1: string,
                                  req2: NotifyRequest, now2: int, token2: string,
                                  verify: (Option<string>, string) -> Verdict,
                                  parse: string -> Option<Value>, decrypt: Value -> Option<Value>)
    requires IsHexToken(token1) && IsHexToken(token2)
    requires Delivers(req1, verify, parse, decrypt, key, SUCCESS)
    requires Delivers(req2, verify, parse, decrypt, key, SUCCESS)
    requires !Truthy(Get(Current(store, key), Token))
    ensures var s1 := Notify(store, cfg, req1, now1, token1, verify, parse, decrypt).0;
            var s2 := Notify(s1, cfg, req2, now2, token2, verify, parse, decrypt).0;
            && key in s2
            && Get(s2[key], Token) == Str(token1)
            && Get(s2[key], TokenExpiresAt) == Num(now1 + cfg.tokenTtlMs)
            && Get(s2[key], TokenViews) == Num(0)
            && Get(s2[key], Status) == SUCCESS
            && Get(s2[key], PaidAt) == Num(now2)
  {
    var s1 := Delivered(store, cfg, req1, now1, token1, verify, parse, decrypt, key, SUCCESS);
    assert Truthy(Str(token1));
    assert Current(s1, key) == s1[key];
    var s2 := Delivered(s1, cfg, req2, now2, token2, verify, parse, decrypt, key, SUCCESS);
  }

  /** Status is not monotonic: any later notification with a state other than
      `SUCCESS` overwrites the status, which hides the token from the status
      poll and makes redemption refuse with `not_paid`, whatever came before. */
  lemma LaterNotificationRevokes(store: Store, cfg: Config, tradeNo: string, state: Value,
                                 req: NotifyRequest, now: int, freshToken: string, token: Value, later: int,
                                 verify: (Option<string>, string) -> Verdict,
                                 parse: string -> Option<Value>, decrypt: Value -> Option<Value>)
    requires IsHexToken(freshToken)
    requires Delivers(req, verify, parse, decrypt, Str(tradeNo), state)
    requires state != SUCCESS
    ensures var s := Notify(store, cfg, req, now, freshToken, verify, parse, decrypt).0;
            && StatusOf(s, tradeNo, later).Found?
            && StatusOf(s, tradeNo, later).view.status == state
            && StatusOf(s, tradeNo, later).view.credential.None?
            && Redeem(s, cfg, tradeNo, token, later) == (s, Refused(NotPaid))
  {
  }

  /** A notification for a trade number the store has never seen creates a
      record holding only what the notification wrote. */
  lemma NotifyUnknownCreates(store: Store, cfg: Config, key: Value, state: Value,
                             req: NotifyRequest, now: int, freshToken: string,
                             verify: (Option<string>, string) -> Verdict,
                             parse: string -> Option<Value>, decrypt: Value -> Option<Value>)
    requires IsHexToken(freshToken)
    requires Delivers(req, verify, parse, decrypt, key, state)
    requires key !in store
    ensures var s := Notify(store, cfg, req, now, freshToken, verify, parse, decrypt).0;
            && key in s
            && Get(s[key], Status) == state
            && Get(s[key], PaidAt) == Num(now)
            && Get(s[key], FormData) == Undefined
            && Get(s[key], AmountFen) == Undefined
            && Get(s[key], CreatedAt) == Undefined
            && (state == SUCCESS <==> Get(s[key], Token) == Str(freshToken))
  {
    var s := Notify(store, cfg, req, now, freshToken, verify, parse, decrypt).0;
    assert Current(store, key) == map[];
    if state != SUCCESS {
      assert Get(s[key], Token) == Undefined;
    }
  }

  // ---------------------------------------------------------------------------
  // Order creation

  /** The record is written before the gateway call, so whatever the gateway
      does, the status poll then finds the order `pending` with no token shown. */
  lemma CreatedOrderIsPending(store: Store, cfg: Config, body: Value, now: int, suffix: nat,
                              requestNonce: string, payNonce: string,
                              stringify: Value -> string, sign: string -> string,
                              gateway: GatewayCall -> Option<Value>, later: int)
    requires suffix < 1000
    requires Acceptable(body)
    ensures var s := CreateOrder(store, cfg, body, now, suffix, requestNonce, payNonce, stringify, sign, gateway).0;
            var st := StatusOf(s, TradeNumber(now, suffix), later);
            && st.Found?
            && st.view.status == PENDING
            && st.view.amountFen == Num(cfg.amountFen)
            && st.view.credential.None?
  {
  }

  /** Two order creations whose trade numbers coincide merge into one record:
      the second resets the status to `pending` and the view count to 0, keeps
      the token, and so locks its holder out of redemption. */
  lemma TradeNumberCollisionRevokes(store: Store, cfg: Config, body: Value, now: int, suffix: nat,
                                    requestNonce: string, payNonce: string,
                                    stringify: Value -> string, sign: string -> string,
                                    gateway: GatewayCall -> Option<Value>, later: int)
    requires suffix < 1000
    requires Acceptable(body)
    requires Str(TradeNumber(now, suffix)) in store
    ensures var key := Str(TradeNumber(now, suffix));
            var s := CreateOrder(store, cfg, body, now, suffix, requestNonce, payNonce, stringify, sign, gateway).0;
            && Get(s[key], Token) == Get(store[key], Token)
            && Get(s[key], TokenExpiresAt) == Get(store[key], TokenExpiresAt)
            && Get(s[key], TransactionId) == Get(store[key], TransactionId)
            && Get(s[key], TokenViews) == Num(0)
            && Redeem(s, cfg, TradeNumber(now, suffix), Get(store[key], Token), later).1 == Refused(NotPaid)
  {
    var key := Str(TradeNumber(now, suffix));
    assert Token !in PendingRecord(cfg, body, now);
    assert TokenExpiresAt !in PendingRecord(cfg, body, now);
    assert TransactionId !in PendingRecord(cfg, body, now);
  }

  /** Trade numbers minted at clock readings of equal decimal width are
      distinct unless both the reading and the random suffix agree. */
  lemma {:induction false} TradeNumberInjective(now1: nat, suffix1: nat, now2: nat, suffix2: nat)
    requires suffix1 < 1000 && suffix2 < 1000
    requires |NatToString(now1)| == |NatToString(now2)|
    requires TradeNumber(now1, suffix1) == TradeNumber(now2, suffix2)
    ensures now1 == now2 && suffix1 == suffix2
  {
    var a := NatToString(now1);
    var b := NatToString(now2);
    var t1 := "wc" + a + NatToString(suffix1);
    var t2 := "wc" + b + NatToString(suffix2);
    assert t1 == t2;
    assert t1[2..2 + |a|] == a;
    assert t2[2..2 + |b|] == b;
    assert t1[2 + |a|..] == NatToString(suffix1);
    assert t2[2 + |b|..] == NatToString(suffix2);
    ParseNatToString(now1);
    ParseNatToString(now2);
    ParseNatToString(suffix1);
    ParseNatToString(suffix2);
  }

  /** Without the width condition trade numbers can collide: reading 1 with
      suffix 23 and reading 12 with suffix 3 both give `wc123`. */
  lemma TradeNumberCollision()
    ensures TradeNumber(1, 23) == TradeNumber(12, 3) == "wc123"
  {
    assert NatToString(1) == "1";
    assert NatToString(23) == "23";
    assert NatToString(12) == "12";
    assert NatToString(3) == "3";
  }

  // ---------------------------------------------------------------------------
  // Token lifetime

  /** At the instant `now == tokenExpiresAt` the status poll already hides the
      token, yet redemption still accepts it. */
  lemma ExpiryBoundaryAsymmetric(store: Store, cfg: Config, tradeNo: string, t: string, now: int)
    requires Str(tradeNo) in store
    requires now != 0 && t != ""
    requires Get(store[Str(tradeNo)], Status) == SUCCESS
    requires Get(store[Str(tradeNo)], Token) == Str(t)
    requires Get(store[Str(tradeNo)], TokenExpiresAt) == Num(now)
    requires QrConfigured(cfg) && Views(store[Str(tradeNo)]) < cfg.maxViews
    ensures StatusOf(store, tradeNo, now).view.credential.None?
    ensures Redeem(store, cfg, tradeNo, Str(t), now).1.Granted?
  {
  }

  /** A `SUCCESS` notification for a pending order at `now` makes the token
      visible in the status poll and redeemable at once. */
  lemma PaidOrderRedeemable(store: Store, cfg: Config, tradeNo: string,
                            req: NotifyRequest, now: int, freshToken: string,
                            verify: (Option<string>, string) -> Verdict,
                            parse: string -> Option<Value>, decrypt: Value -> Option<Value>)
    requires IsHexToken(freshToken)
    requires Delivers(req, verify, parse, decrypt, Str(tradeNo), SUCCESS)
    requires !Truthy(Get(Current(store, Str(tradeNo)), Token))
    requires cfg.tokenTtlMs > 0 && now + cfg.tokenTtlMs != 0
    requires QrConfigured(cfg) && cfg.maxViews >= 1
    ensures var s := Notify(store, cfg, req, now, freshToken, verify, parse, decrypt).0;
            && StatusOf(s, tradeNo, now).view.credential == Some(Credential(Str(freshToken), Num(now + cfg.tokenTtlMs)))
            && Redeem(s, cfg, tradeNo, Str(freshToken), now).1
                 == Granted(cfg.groupQrUrl.value, Num(now + cfg.tokenTtlMs), cfg.maxViews - 1)
  {
    var s := Delivered(store, cfg, req, now, freshToken, verify, parse, decrypt, Str(tradeNo), SUCCESS);
    FreshTokenUsable(s, cfg, tradeNo, freshToken, now, now + cfg.tokenTtlMs);
  }

  /** A paid record holding a token that expires after `now` and has never
      been viewed is shown by the status poll and granted by redemption. */
  lemma FreshTokenUsable(s: Store, cfg: Config, tradeNo: string, t: string, now: int, exp: int)
    requires Str(tradeNo) in s && t != ""
    requires Get(s[Str(tradeNo)], Status) == SUCCESS
    requires Get(s[Str(tradeNo)], Token) == Str(t)
    requires Get(s[Str(tradeNo)], TokenExpiresAt) == Num(exp) && exp > now && exp != 0
    requires Get(s[Str(tradeNo)], TokenViews) == Num(0)
    requires QrConfigured(cfg) && cfg.maxViews >= 1
    ensures StatusOf(s, tradeNo, now).view.credential == Some(Credential(Str(t), Num(exp)))
    ensures Redeem(s, cfg, tradeNo, Str(t), now).1 == Granted(cfg.groupQrUrl.value, Num(exp), cfg.maxViews - 1)
  {
  }

  // ---------------------------------------------------------------------------
  // Redemption budget

  /** `n` redemptions in a row with the same token at the same instant. */
  function RedeemRepeatedly(store: Store, cfg: Config, tradeNo: string, token: Value, now: int, n: nat): (replies: seq<RedeemReply>)
    ensures |replies| == n
    decreases n
  {
    if n == 0 then []
    else
      var r := Redeem(store, cfg, tradeNo, token, now);
      [r.1] + RedeemRepeatedly(r.0, cfg, tradeNo, token, now, n - 1)
  }

  /** A record whose token redemption accepts in every respect but the count. */
  predicate Redeemable(store: Store, cfg: Config, tradeNo: string, token: Value, now: int) {
    && Str(tradeNo) in store
    && Paid(store[Str(tradeNo)])
    && TokenMatches(store[Str(tradeNo)], token)
    && !Expired(store[Str(tradeNo)], now)
    && QrConfigured(cfg)
  }

  /** One redemption under the limit grants and leaves the record redeemable
      with one more view used. */
  lemma RedeemUnderLimit(store: Store, cfg: Config, tradeNo: string, token: Value, now: int) returns (next: Store)
    requires Redeemable(store, cfg, tradeNo, token, now)
    requires Views(store[Str(tradeNo)]) < cfg.maxViews
    ensures Redeem(store, cfg, tradeNo, token, now)
            == (next, Granted(cfg.groupQrUrl.value, Get(store[Str(tradeNo)], TokenExpiresAt),
                              cfg.maxViews - Views(store[Str(tradeNo)]) - 1))
    ensures Redeemable(next, cfg, tradeNo, token, now)
    ensures Views(next[Str(tradeNo)]) == Views(store[Str(tradeNo)]) + 1
    ensures Get(next[Str(tradeNo)], TokenExpiresAt) == Get(store[Str(tradeNo)], TokenExpiresAt)
  {
    var key := Str(tradeNo);
    next := CountView(store, key);
    assert Get(next[key], Status) == Get(store[key], Status);
    assert Get(next[key], Token) == Get(store[key], Token);
    assert Get(next[key], TokenExpiresAt) == Get(store[key], TokenExpiresAt);
  }

  /** At the limit redemption refuses and changes nothing. */
  lemma RedeemAtLimit(store: Store, cfg: Config, tradeNo: string, token: Value, now: int)
    requires Redeemable(store, cfg, tradeNo, token, now)
    requires Views(store[Str(tradeNo)]) >= cfg.maxViews
    ensures Redeem(store, cfg, tradeNo, token, now) == (store, Refused(ViewLimit))
  {
  }

  /** Unfolding a run of redemptions by one step. */
  lemma RedeemRepeatedlyStep(store: Store, cfg: Config, tradeNo: string, token: Value, now: int, n: nat,
                             next: Store, reply: RedeemReply)
    requires n > 0
    requires Redeem(store, cfg, tradeNo, token, now) == (next, reply)
    ensures RedeemRepeatedly(store, cfg, tradeNo, token, now, n)
            == [reply] + RedeemRepeatedly(next, cfg, tradeNo, token, now, n - 1)
  {
  }

  /** The `i`-th reply of a run of redemptions that starts with `v` views used. */
  function BudgetReply(i: nat, v: int, maxViews: int, image: string, expiresAt: Value): RedeemReply {
    if i < maxViews - v then Granted(image, expiresAt, maxViews - v - i - 1) else Refused(ViewLimit)
  }

  /** Prepending the first reply to a run that starts one view later. */
  lemma BudgetShift(replies: seq<RedeemReply>, rest: seq<RedeemReply>, v: int, vNext: int,
                    maxViews: int, image: string, exp: Value)
    requires |replies| == |rest| + 1
    requires replies[1..] == rest
    requires replies[0] == BudgetReply(0, v, maxViews, image, exp)
    requires vNext == (if v < maxViews then v + 1 else v)
    requires forall i :: 0 <= i < |rest| ==> rest[i] == BudgetReply(i, vNext, maxViews, image, exp)
    ensures forall i :: 0 <= i < |replies| ==> replies[i] == BudgetReply(i, v, maxViews, image, exp)
  {
    forall i | 0 < i < |replies|
      ensures replies[i] == BudgetReply(i, v, maxViews, image, exp)
    {
      assert replies[i] == rest[i - 1];
    }
  }

  /** With `v` views used of `maxViews`, the next redemptions answer with
      `maxViews - v - 1, …, 1, 0` views remaining and every one after that
      hits the view limit. */
  lemma {:induction false} RedemptionBudget(store: Store, cfg: Config, tradeNo: string, token: Value, now: int, n: nat)
    requires Redeemable(store, cfg, tradeNo, token, now)
    requires Views(store[Str(tradeNo)]) <= cfg.maxViews
    ensures forall i :: 0 <= i < n ==>
              RedeemRepeatedly(store, cfg, tradeNo, token, now, n)[i]
              == BudgetReply(i, Views(store[Str(tradeNo)]), cfg.maxViews, cfg.groupQrUrl.value,
                             Get(store[Str(tradeNo)], TokenExpiresAt))
    decreases n
  {
    if n > 0 {
      var key := Str(tradeNo);
      var v := Views(store[key]);
      var image := cfg.groupQrUrl.value;
      var exp := Get(store[key], TokenExpiresAt);
      var next := store;
      if v < cfg.maxViews {
        next := RedeemUnderLimit(store, cfg, tradeNo, token, now);
        RedeemRepeatedlyStep(store, cfg, tradeNo, token, now, n, next, BudgetReply(0, v, cfg.maxViews, image, exp));
      } else {
        RedeemAtLimit(store, cfg, tradeNo, token, now);
        RedeemRepeatedlyStep(store, cfg, tradeNo, token, now, n, store, BudgetReply(0, v, cfg.maxViews, image, exp));
      }
      RedemptionBudget(next, cfg, tradeNo, token, now, n - 1);
      BudgetShift(RedeemRepeatedly(store, cfg, tradeNo, token, now, n), RedeemRepeatedly(next, cfg, tradeNo, token, now, n - 1),
                  v, Views(next[key]), cfg.maxViews, image, exp);
    }
  }
}

=== FILE: payment_server.dfy ===
/** The four HTTP handlers of the payment server as pure functions from the
    order store and one request to the new store and the reply.  The clock
    reading, the random values, the gateway, JSON and the cryptography are
    parameters. */
module PaymentServer {
  import opened Options
  import opened Text
  import opened JsValue
  import opened Signing
  import opened Orders

  // ---------------------------------------------------------------------------
  // POST /api/order

  const SCENE_ERROR: string := "scene must be jsapi or native"
  const OPENID_ERROR: string := "openid required for jsapi"
  const DESCRIPTION: string := "百万周末AI社区-报名费"
  const JSAPI_PATH: string := "/v3/pay/transactions/jsapi"
  const NATIVE_PATH: string := "/v3/pay/transactions/native"

  const JSAPI: Value := Str("jsapi")
  const NATIVE: Value := Str("native")
  const PENDING: Value := Str("pending")
  const SUCCESS: Value := Str("SUCCESS")

  /** What the gateway is sent: the verb, the path, the JSON payload and the
      signed `Authorization` header. */
  datatype GatewayCall = GatewayCall(verb: string, urlPath: string, payload: Value, authorization: string)

  datatype OrderReply =
    | BadRequest(error: string)
    | JsapiOrder(outTradeNo: string, payParams: PayParams)
    | NativeOrder(outTradeNo: string, codeUrl: Value)
    | OrderFailed

  /** The order-creation body passes validation: a `jsapi` or `native` scene,
      and for `jsapi` a truthy `openid`. */
  predicate Acceptable(body: Value) {
    var scene := Prop(body, "scene");
    (scene == JSAPI || scene == NATIVE) && (scene == JSAPI ==> Truthy(Prop(body, "openid")))
  }

  /** `wc${Date.now()}${Math.floor(Math.random() * 1000)}`. */
  function TradeNumber(now: int, suffix: nat): (t: string)
    requires suffix < 1000
    ensures |t| >= 4 && t[..2] == "wc"
    ensures now >= 0 ==> AllDigits(t[2..])
  {
    var t := "wc" + IntToString(now) + NatToString(suffix);
    if now >= 0 then
      assert t[2..] == NatToString(now) + NatToString(suffix);
      t
    else t
  }

  /** The record written before the gateway is called. */
  function PendingRecord(cfg: Config, body: Value, now: int): Order {
    map[Status := PENDING, FormData := Prop(body, "formData"), Scene := Prop(body, "scene"),
        AmountFen := Num(cfg.amountFen), CreatedAt := Num(now), TokenViews := Num(0)]
  }

  /** The store once the validated order is recorded, before the gateway call.
      Fields the pending record does not name survive from an earlier record
      under the same trade number. */
  function RecordPending(store: Store, cfg: Config, body: Value, now: int, suffix: nat): (s: Store)
    requires suffix < 1000
    ensures var key := Str(TradeNumber(now, suffix));
      && s.Keys == store.Keys + {key}
      && Get(s[key], Status) == PENDING
      && Get(s[key], TokenViews) == Num(0)
      && Get(s[key], AmountFen) == Num(cfg.amountFen)
      && Get(s[key], CreatedAt) == Num(now)
      && Get(s[key], Scene) == Prop(body, "scene")
      && Get(s[key], FormData) == Prop(body, "formData")
      && (forall f :: f !in PendingRecord(cfg, body, now) ==> Get(s[key], f) == Get(Current(store, key), f))
      && (forall k :: k in store && k != key ==> s[k] == store[k])
  {
    var key := Str(TradeNumber(now, suffix));
    var data := PendingRecord(cfg, body, now);
    assert data.Keys == {Status, FormData, Scene, AmountFen, CreatedAt, TokenViews};
    UpdateOrder(store, key, data)
  }

  /** `basePayload`, plus `payer: { openid }` for a `jsapi` order. */
  function OrderPayload(cfg: Config, tradeNo: string, body: Value): (p: Value)
    ensures p.Obj? && "out_trade_no" in p.props && p.props["out_trade_no"] == Str(tradeNo)
    ensures "amount" in p.props && p.props["amount"] == Obj(map["total" := Num(cfg.amountFen), "currency" := Str("CNY")])
    ensures ("payer" in p.props) <==> Prop(body, "scene") == JSAPI
    ensures "payer" in p.props ==> p.props["payer"] == Obj(map["openid" := Prop(body, "openid")])
    ensures p.props.Keys - {"payer"} == {"appid", "mchid", "description", "out_trade_no", "notify_url", "amount"}
    ensures "appid" in p.props && p.props["appid"] == Str(cfg.appId)
    ensures "mchid" in p.props && p.props["mchid"] == Str(cfg.mchId)
    ensures "notify_url" in p.props && p.props["notify_url"] == Str(cfg.notifyUrl)
    ensures "description" in p.props && p.props["description"] == Str(DESCRIPTION)
  {
    var base := map[
      "appid" := Str(cfg.appId),
      "mchid" := Str(cfg.mchId),
      "description" := Str(DESCRIPTION),
      "out_trade_no" := Str(tradeNo),
      "notify_url" := Str(cfg.notifyUrl),
      "amount" := Obj(map["total" := Num(cfg.amountFen), "currency" := Str("CNY")])];
    if Prop(body, "scene") == JSAPI then Obj(base["payer" := Obj(map["openid" := Prop(body, "openid")])])
    else Obj(base)
  }

  /** `callWeChat({ method: 'POST', path, data })`: the request signed over the
      serialised payload. */
  function OrderCall(cfg: Config, tradeNo: string, body: Value, now: int, requestNonce: string,
                     stringify: Value -> string, sign: string -> string): (c: GatewayCall)
    ensures c.verb == "POST"
    ensures c.urlPath == (if Prop(body, "scene") == JSAPI then JSAPI_PATH else NATIVE_PATH)
    ensures c.payload == OrderPayload(cfg, tradeNo, body)
    ensures c.authorization
            == SignRequest(cfg.mchId, cfg.mchSerial, "POST", c.urlPath, stringify(c.payload), now, requestNonce, sign).authorization
  {
    var path := if Prop(body, "scene") == JSAPI then JSAPI_PATH else NATIVE_PATH;
    var payload := OrderPayload(cfg, tradeNo, body);
    GatewayCall("POST", path, payload,
      SignRequest(cfg.mchId, cfg.mchSerial, "POST", path, stringify(payload), now, requestNonce, sign).authorization)
  }

  /** The gateway answered and its answer is an object one can read a field of. */
  predicate GatewayAnswered(resp: Option<Value>) {
    resp.Some? && resp.value != Undefined && resp.value != Null
  }

  /** `POST /api/order` at clock reading `now`, with `suffix` the random three-digit
      tail of the trade number and `requestNonce`/`payNonce` the nonces of the
      two signatures.  `gateway` is the payment API: `None` when the call throws. */
  function CreateOrder(store: Store, cfg: Config, body: Value, now: int, suffix: nat,
                       requestNonce: string, payNonce: string,
                       stringify: Value -> string, sign: string -> string,
                       gateway: GatewayCall -> Option<Value>): (r: (Store, OrderReply))
    requires suffix < 1000
    ensures !Acceptable(body) <==> r.1.BadRequest?
    ensures Prop(body, "scene") != JSAPI && Prop(body, "scene") != NATIVE ==> r == (store, BadRequest(SCENE_ERROR))
    ensures Prop(body, "scene") == JSAPI && !Truthy(Prop(body, "openid")) ==> r == (store, BadRequest(OPENID_ERROR))
    ensures Acceptable(body) ==> r.0 == RecordPending(store, cfg, body, now, suffix)
    ensures Acceptable(body) ==>
              var resp := gateway(OrderCall(cfg, TradeNumber(now, suffix), body, now, requestNonce, stringify, sign));
              && (r.1.OrderFailed? <==> !GatewayAnswered(resp))
              && (r.1.JsapiOrder? ==>
                    (&& Prop(body, "scene") == JSAPI
                     && r.1.outTradeNo == TradeNumber(now, suffix)
                     && r.1.payParams.appId == cfg.appId
                     && r.1.payParams.package == "prepay_id=" + ToDisplayString(Prop(resp.value, "prepay_id"))
                     && r.1.payParams == SignJsapi(cfg.appId, now, payNonce, ToDisplayString(Prop(resp.value, "prepay_id")), sign)))
              && (r.1.NativeOrder? ==>
                    (&& Prop(body, "scene") == NATIVE
                     && r.1.outTradeNo == TradeNumber(now, suffix)
                     && r.1.codeUrl == Prop(resp.value, "code_url")))
  {
    var scene := Prop(body, "scene");
    var openid := Prop(body, "openid");
    if !Truthy(scene) || (scene != JSAPI && scene != NATIVE) then (store, BadRequest(SCENE_ERROR))
    else if scene == JSAPI && !Truthy(openid) then (store, BadRequest(OPENID_ERROR))
    else
      var tradeNo := TradeNumber(now, suffix);
      var stored := RecordPending(store, cfg, body, now, suffix);
      var resp := gateway(OrderCall(cfg, tradeNo, body, now, requestNonce, stringify, sign));
      if resp.None? then (stored, OrderFailed)
      else if scene == JSAPI then
        match PropOrThrow(resp.value, "prepay_id")
        case None => (stored, OrderFailed)
        case Some(prepayId) =>
          (stored, JsapiOrder(tradeNo, SignJsapi(cfg.appId, now, payNonce, ToDisplayString(prepayId), sign)))
      else
        match PropOrThrow(resp.value, "code_url")
        case None => (stored, OrderFailed)
        case Some(codeUrl) => (stored, NativeOrder(tradeNo, codeUrl))
  }

  // ---------------------------------------------------------------------------
  // POST /api/notify

  /** The headers and raw body of a payment notification; a missing header is `None`. */
  datatype NotifyRequest = NotifyRequest(
    signature: Option<string>,
    timestamp: Option<string>,
    nonce: Option<string>,
    serial: Option<string>,
    rawBody: string)

  datatype NotifyReply = Acknowledged | SignatureError | NotifyFailed

  /** `req.header(name)` as a value: `undefined` when absent. */
  function HeaderValue(h: Option<string>): (v: Value)
    ensures h.None? <==> v == Undefined
  {
    match h
    case None => Undefined
    case Some(s) => Str(s)
  }

  /** `randomStr(12)`: 24 lower-case hexadecimal digits. */
  predicate IsHexToken(t: string) {
    |t| == 24 && forall i :: 0 <= i < |t| ==> IsHexDigit(t[i])
  }

  predicate IsHexDigit(c: char) {
    '0' <= c <= '9' || 'a' <= c <= 'f'
  }

  /** The decrypted payment result: `JSON.parse(rawBody)`, its `resource`,
      `decryptResource`, and the destructuring that throws on `null` or
      `undefined`.  A `resource` that is not an object makes `decryptResource`
      throw before any decryption: its destructuring throws on `null` and
      `undefined`, and `Buffer.from` throws on the missing `nonce` of any
      other non-object.  `None` stands for any of these throwing. */
  function Payload(rawBody: string, parse: string -> Option<Value>, decrypt: Value -> Option<Value>): (d: Option<Value>)
    ensures d.Some? ==> d.value != Undefined && d.value != Null
    ensures d.Some? <==>
              && parse(rawBody).Some?
              && parse(rawBody).value != Undefined && parse(rawBody).value != Null
              && Prop(parse(rawBody).value, "resource").Obj?
              && decrypt(Prop(parse(rawBody).value, "resource")).Some?
              && decrypt(Prop(parse(rawBody).value, "resource")).value != Undefined
              && decrypt(Prop(parse(rawBody).value, "resource")).value != Null
    ensures d.Some? ==> d.value == decrypt(Prop(parse(rawBody).value, "resource")).value
  {
    match parse(rawBody)
    case None => None
    case Some(event) =>
      match PropOrThrow(event, "resource")
      case None => None
      case Some(resource) =>
        if !resource.Obj? then None
        else match decrypt(resource)
        case None => None
        case Some(data) => if data == Undefined || data == Null then None else Some(data)
  }

  /** The notification mints a token: the trade succeeded and the record has no
      truthy token yet. */
  predicate Mints(current: Order, data: Value) {
    Prop(data, "trade_state") == SUCCESS && !Truthy(Get(current, Token))
  }

  /** The `updates` object of the notification handler. */
  function NotifyUpdates(current: Order, data: Value, serial: Value, now: int, ttl: int, freshToken: string): (u: Order)
    ensures Get(u, Status) == Prop(data, "trade_state") && Get(u, PaidAt) == Num(now)
    ensures Get(u, TransactionId) == Prop(data, "transaction_id") && Get(u, NotifySerial) == serial
    ensures Status in u && TransactionId in u && NotifySerial in u && PaidAt in u
    ensures FormData !in u && Scene !in u && AmountFen !in u && CreatedAt !in u
    ensures Mints(current, data) ==>
              && Get(u, Token) == Str(freshToken) && Get(u, TokenExpiresAt) == Num(now + ttl)
              && Get(u, TokenViews) == Num(0)
    ensures !Mints(current, data) ==> Token !in u && TokenExpiresAt !in u && TokenViews !in u
  {
    var base := map[Status := Prop(data, "trade_state"), TransactionId := Prop(data, "transaction_id"),
                    NotifySerial := serial, PaidAt := Num(now)];
    if Mints(current, data) then
      base[Token := Str(freshToken)][TokenExpiresAt := Num(now + ttl)][TokenViews := Num(0)]
    else base
  }

  /** The store after a verified notification carrying the payment result
      `data`: the record under `out_trade_no` (created if absent) takes the
      new status, transaction id, serial and payment time, and a token only
      when `Mints` holds; every other field and record is kept. */
  function RecordNotification(store: Store, cfg: Config, data: Value, serial: Value, now: int, freshToken: string): (s: Store)
    ensures var key := Prop(data, "out_trade_no");
            var before := Current(store, key);
            && s.Keys == store.Keys + {key}
            && (forall k :: k in store && k != key ==> s[k] == store[k])
            && Get(s[key], Status) == Prop(data, "trade_state")
            && Get(s[key], TransactionId) == Prop(data, "transaction_id")
            && Get(s[key], NotifySerial) == serial
            && Get(s[key], PaidAt) == Num(now)
            && (Mints(before, data) ==>
                  && Get(s[key], Token) == Str(freshToken)
                  && Get(s[key], TokenExpiresAt) == Num(now + cfg.tokenTtlMs)
                  && Get(s[key], TokenViews) == Num(0))
            && (!Mints(before, data) ==>
                  && Get(s[key], Token) == Get(before, Token)
                  && Get(s[key], TokenExpiresAt) == Get(before, TokenExpiresAt)
                  && Get(s[key], TokenViews) == Get(before, TokenViews))
            && Get(s[key], FormData) == Get(before, FormData)
            && Get(s[key], Scene) == Get(before, Scene)
            && Get(s[key], AmountFen) == Get(before, AmountFen)
            && Get(s[key], CreatedAt) == Get(before, CreatedAt)
  {
    var key := Prop(data, "out_trade_no");
    var before := Current(store, key);
    var u := NotifyUpdates(before, data, serial, now, cfg.tokenTtlMs, freshToken);
    UpdateOrder(store, key, u)
  }

  /** The signature check over the notification's headers and body. */
  function NotifyVerdict(req: NotifyRequest, verify: (Option<string>, string) -> Verdict): Verdict {
    VerifyNotifySignature(req.signature, req.timestamp, req.nonce, req.rawBody, verify)
  }

  /** `POST /api/notify` at clock reading `now`, with `freshToken` the token
      `randomStr(12)` would mint. */
  function Notify(store: Store, cfg: Config, req: NotifyRequest, now: int, freshToken: string,
                  verify: (Option<string>, string) -> Verdict,
                  parse: string -> Option<Value>, decrypt: Value -> Option<Value>): (r: (Store, NotifyReply))
    requires IsHexToken(freshToken)
    ensures NotifyVerdict(req, verify) == Invalid ==> r == (store, SignatureError)
    ensures NotifyVerdict(req, verify) == Threw ==> r == (store, NotifyFailed)
    ensures NotifyVerdict(req, verify) == Valid && Payload(req.rawBody, parse, decrypt).None? ==> r == (store, NotifyFailed)
    ensures r.1 == SignatureError <==> NotifyVerdict(req, verify) == Invalid
    ensures r.1 == Acknowledged <==> NotifyVerdict(req, verify) == Valid && Payload(req.rawBody, parse, decrypt).Some?
    ensures r.1 != Acknowledged ==> r.0 == store
    ensures r.1 == Acknowledged ==>
              r.0 == RecordNotification(store, cfg, Payload(req.rawBody, parse, decrypt).value,
                                        HeaderValue(req.serial), now, freshToken)
  {
    var verdict := NotifyVerdict(req, verify);
    if verdict == Threw then (store, NotifyFailed)
    else if verdict == Invalid then (store, SignatureError)
    else
      match Payload(req.rawBody, parse, decrypt)
      case None => (store, NotifyFailed)
      case Some(data) =>
        (RecordNotification(store, cfg, data, HeaderValue(req.serial), now, freshToken), Acknowledged)
  }

  // ---------------------------------------------------------------------------
  // GET /api/orders/:outTradeNo

  datatype Credential = Credential(token: Value, expiresAt: Value)

  datatype StatusView = StatusView(
    outTradeNo: string,
    status: Value,
    transactionId: Value,
    amountFen: Value,
    scene: Value,
    credential: Option<Credential>)

  datatype StatusReply = Unknown | Found(view: StatusView)

  /** The token is still shown: no truthy expiry, or one strictly after `now`. */
  predicate ShowsToken(o: Order, now: int) {
    Get(o, Status) == SUCCESS && Truthy(Get(o, Token))
    && (!Truthy(Get(o, TokenExpiresAt)) || GreaterThan(Get(o, TokenExpiresAt), now))
  }

  /** `GET /api/orders/:outTradeNo` at clock reading `now`. */
  function StatusOf(store: Store, tradeNo: string, now: int): (r: StatusReply)
    ensures r.Unknown? <==> Str(tradeNo) !in store
    ensures r.Found? ==>
              var o := store[Str(tradeNo)];
              && r.view.outTradeNo == tradeNo
              && r.view.status == Get(o, Status)
              && r.view.transactionId == Get(o, TransactionId)
              && r.view.amountFen == Get(o, AmountFen)
              && r.view.scene == Get(o, Scene)
              && (r.view.credential.Some? <==> ShowsToken(o, now))
              && (r.view.credential.Some? ==> r.view.credential.value == Credential(Get(o, Token), Get(o, TokenExpiresAt)))
  {
    var key := Str(tradeNo);
    if key !in store then Unknown
    else
      var o := store[key];
      Found(StatusView(tradeNo, Get(o, Status), Get(o, TransactionId), Get(o, AmountFen), Get(o, Scene),
        if ShowsToken(o, now) then Some(Credential(Get(o, Token), Get(o, TokenExpiresAt))) else None))
  }

  // ---------------------------------------------------------------------------
  // GET /api/orders/:outTradeNo/qr

  datatype Refusal = OrderNotFound | NotPaid | TokenInvalid | TokenExpired | QrNotConfigured | ViewLimit

  /** The HTTP status each refusal of `Redeem` is sent with: 404 only for an
      unknown order, 429 only at the view limit, 500 only for a missing QR
      image, and 403 for the three token and payment checks. */
  function HttpStatus(e: Refusal): (code: int)
    ensures code == 404 <==> e == OrderNotFound
    ensures code == 429 <==> e == ViewLimit
    ensures code == 500 <==> e == QrNotConfigured
    ensures code == 403 <==> e == NotPaid || e == TokenInvalid || e == TokenExpired
  {
    match e
    case OrderNotFound => 404
    case NotPaid => 403
    case TokenInvalid => 403
    case TokenExpired => 403
    case QrNotConfigured => 500
    case ViewLimit => 429
  }

  datatype RedeemReply = Granted(image: string, expiresAt: Value, remainingViews: int) | Refused(reason: Refusal)

  predicate Paid(o: Order) {
    Get(o, Status) == SUCCESS
  }

  /** The presented token is truthy and strictly equal to the record's truthy token. */
  predicate TokenMatches(o: Order, token: Value) {
    Truthy(Get(o, Token)) && Truthy(token) && token == Get(o, Token)
  }

  /** Redemption's expiry test: a truthy expiry strictly before `now`. */
  predicate Expired(o: Order, now: int) {
    Truthy(Get(o, TokenExpiresAt)) && LessThan(Get(o, TokenExpiresAt), now)
  }

  predicate QrConfigured(cfg: Config) {
    cfg.groupQrUrl.Some? && cfg.groupQrUrl.value != ""
  }

  /** `Number.isFinite(order.tokenViews) ? order.tokenViews : 0`. */
  function Views(o: Order): (n: int)
    ensures Get(o, TokenViews).Num? ==> n == Get(o, TokenViews).n
    ensures !Get(o, TokenViews).Num? ==> n == 0
  {
    if Get(o, TokenViews).Num? then Get(o, TokenViews).n else 0
  }

  /** `updateOrder(outTradeNo, { tokenViews: views + 1 })`: one more view
      counted, nothing else changed. */
  function CountView(store: Store, key: Value): (s: Store)
    requires key in store
    ensures s.Keys == store.Keys
    ensures Get(s[key], TokenViews) == Num(Views(store[key]) + 1)
    ensures forall f :: f != TokenViews ==> Get(s[key], f) == Get(store[key], f)
    ensures forall k :: k in store && k != key ==> s[k] == store[k]
  {
    UpdateOrder(store, key, map[TokenViews := Num(Views(store[key]) + 1)])
  }

  /** `GET /api/orders/:outTradeNo/qr?token=…` at clock reading `now`. */
  function Redeem(store: Store, cfg: Config, tradeNo: string, token: Value, now: int): (r: (Store, RedeemReply))
    ensures r.1.Refused? ==> r.0 == store
    ensures r.1 == Refused(OrderNotFound) <==> Str(tradeNo) !in store
    ensures Str(tradeNo) in store ==>
              var o := store[Str(tradeNo)];
              && (r.1 == Refused(NotPaid) <==> !Paid(o))
              && (r.1 == Refused(TokenInvalid) <==> Paid(o) && !TokenMatches(o, token))
              && (r.1 == Refused(TokenExpired) <==> Paid(o) && TokenMatches(o, token) && Expired(o, now))
              && (r.1 == Refused(QrNotConfigured) <==>
                    Paid(o) && TokenMatches(o, token) && !Expired(o, now) && !QrConfigured(cfg))
              && (r.1 == Refused(ViewLimit) <==>
                    Paid(o) && TokenMatches(o, token) && !Expired(o, now) && QrConfigured(cfg)
                    && Views(o) >= cfg.maxViews)
              && (r.1.Granted? <==>
                    Paid(o) && TokenMatches(o, token) && !Expired(o, now) && QrConfigured(cfg)
                    && Views(o) < cfg.maxViews)
    ensures r.1.Granted? ==>
              var key := Str(tradeNo);
              && key in store
              && r.1.image == cfg.groupQrUrl.value
              && r.1.expiresAt == Get(store[key], TokenExpiresAt)
              && r.1.remainingViews == cfg.maxViews - Views(store[key]) - 1
              && r.0 == CountView(store, key)
  {
    var key := Str(tradeNo);
    if key !in store then (store, Refused(OrderNotFound))
    else
      var o := store[key];
      if !Paid(o) then (store, Refused(NotPaid))
      else if !Truthy(Get(o, Token)) || !Truthy(token) || token != Get(o, Token) then (store, Refused(TokenInvalid))
      else if Expired(o, now) then (store, Refused(TokenExpired))
      else if !QrConfigured(cfg) then (store, Refused(QrNotConfigured))
      else
        var views := Views(o);
        if views >= cfg.maxViews then (store, Refused(ViewLimit))
        else
          var remaining := if cfg.maxViews - views - 1 > 0 then cfg.maxViews - views - 1 else 0;
          (CountView(store, key),
           Granted(cfg.groupQrUrl.value, Get(o, TokenExpiresAt), remaining))
  }
}

=== FILE: signing.dfy ===
/** The canonical messages the payment server signs and verifies.  The RSA
    signature itself (RSASSA-PKCS1-v1_5 with SHA-256, section 8.2 of RFC 8017)
    is an uninterpreted function `sign` or `verify` supplied by the caller; only the
    bytes that go into it are modelled. */
module Signing {
  import opened Options
  import opened Text

  /** Newline-terminated lines: `f0 + "\n" + f1 + "\n" + … + fk + "\n"`. */
  function Lines(fields: seq<string>): string
    decreases |fields|
  {
    if |fields| == 0 then "" else fields[0] + "\n" + Lines(fields[1..])
  }

  lemma {:induction false} LinesIsJoin(fields: seq<string>)
    ensures Lines(fields) == Join(fields + [""], '\n')
    decreases |fields|
  {
    if |fields| > 0 {
      LinesIsJoin(fields[1..]);
      assert (fields + [""])[0] == fields[0];
      assert (fields + [""])[1..] == fields[1..] + [""];
    }
  }

  lemma LinesCons(f: string, rest: seq<string>)
    ensures Lines([f] + rest) == f + "\n" + Lines(rest)
  {
    assert ([f] + rest)[1..] == rest;
  }

  /** Newline-free fields are recovered by splitting the message at its newlines. */
  lemma LinesSplit(fields: seq<string>)
    requires forall i :: 0 <= i < |fields| ==> NoNewline(fields[i])
    ensures Split(Lines(fields), '\n') == fields + [""]
  {
    LinesIsJoin(fields);
    SplitJoin(fields + [""], '\n');
  }

  /** The request message of `signRequest`: verb, URL path, timestamp, nonce and body. */
  function RequestMessage(verb: string, urlPath: string, timestamp: string, nonce: string, body: string): (m: string)
    ensures m == Lines([verb, urlPath, timestamp, nonce, body])
    ensures NoNewline(verb) && NoNewline(urlPath) && NoNewline(timestamp) && NoNewline(nonce) && NoNewline(body)
            ==> Split(m, '\n') == [verb, urlPath, timestamp, nonce, body, ""]
  {
    var m := verb + "\n" + urlPath + "\n" + timestamp + "\n" + nonce + "\n" + body + "\n";
    LinesCons(verb, [urlPath, timestamp, nonce, body]);
    LinesCons(urlPath, [timestamp, nonce, body]);
    LinesCons(timestamp, [nonce, body]);
    LinesCons(nonce, [body]);
    LinesCons(body, []);
    if NoNewline(verb) && NoNewline(urlPath) && NoNewline(timestamp) && NoNewline(nonce) && NoNewline(body) then
      LinesSplit([verb, urlPath, timestamp, nonce, body]);
      m
    else m
  }

  /** The message of `signJsapi`: app id, timestamp, nonce and `prepay_id=<id>`. */
  function JsapiMessage(appId: string, timeStamp: string, nonceStr: string, prepayId: string): (m: string)
    ensures m == Lines([appId, timeStamp, nonceStr, "prepay_id=" + prepayId])
    ensures NoNewline(appId) && NoNewline(timeStamp) && NoNewline(nonceStr) && NoNewline(prepayId)
            ==> Split(m, '\n') == [appId, timeStamp, nonceStr, "prepay_id=" + prepayId, ""]
  {
    var pkg := "prepay_id=" + prepayId;
    var m := appId + "\n" + timeStamp + "\n" + nonceStr + "\n" + pkg + "\n";
    LinesCons(appId, [timeStamp, nonceStr, pkg]);
    LinesCons(timeStamp, [nonceStr, pkg]);
    LinesCons(nonceStr, [pkg]);
    LinesCons(pkg, []);
    if NoNewline(appId) && NoNewline(timeStamp) && NoNewline(nonceStr) && NoNewline(prepayId) then
      assert NoNewline(pkg) by {
        assert forall i :: 0 <= i < |pkg| ==> pkg[i] != '\n' by {
          forall i | 0 <= i < |pkg| ensures pkg[i] != '\n' {
            if i >= 10 {
              assert pkg[i] == prepayId[i - 10];
            }
          }
        }
      }
      LinesSplit([appId, timeStamp, nonceStr, pkg]);
      m
    else m
  }

  /** The message `verifyNotifySignature` checks: timestamp, nonce and raw body. */
  function NotifyMessage(timestamp: string, nonce: string, body: string): (m: string)
    ensures m == Lines([timestamp, nonce, body])
    ensures NoNewline(timestamp) && NoNewline(nonce) && NoNewline(body)
            ==> Split(m, '\n') == [timestamp, nonce, body, ""]
  {
    var m := timestamp + "\n" + nonce + "\n" + body + "\n";
    LinesCons(timestamp, [nonce, body]);
    LinesCons(nonce, [body]);
    LinesCons(body, []);
    if NoNewline(timestamp) && NoNewline(nonce) && NoNewline(body) then
      LinesSplit([timestamp, nonce, body]);
      m
    else m
  }

  /** `Math.floor(ms / 1000).toString()`: the Unix time in whole seconds. */
  function UnixSeconds(nowMs: int): (s: string)
    ensures nowMs >= 0 ==> AllDigits(s) && ParseDigits(s) == nowMs / 1000
    ensures nowMs >= 0 ==> NoNewline(s)
    ensures nowMs >= 0 ==> |s| >= 1 && (s[0] == '0' ==> |s| == 1)
    ensures nowMs < 0 ==> |s| >= 2 && s[0] == '-' && s[1] != '0'
                          && AllDigits(s[1..]) && ParseDigits(s[1..]) == -(nowMs / 1000)
  {
    if nowMs >= 0 then
      ParseNatToString(nowMs / 1000);
      var s := IntToString(nowMs / 1000);
      assert forall i :: 0 <= i < |s| ==> s[i] != '\n';
      s
    else
      ParseNatToString(-(nowMs / 1000));
      var s := IntToString(nowMs / 1000);
      assert s[1..] == NatToString(-(nowMs / 1000));
      s
  }

  /** A header value inside a template literal: a missing header reads `undefined`. */
  function HeaderText(h: Option<string>): string {
    match h
    case Some(v) => v
    case None => "undefined"
  }

  /** One `<name>"<value>"` piece of the `Authorization` header. */
  function Quoted(name: string, value: string): string {
    name + "\"" + value + "\""
  }

  /** Cutting at quotes peels one quote-free piece off the front. */
  lemma SplitQuoted(name: string, value: string, rest: string)
    requires '"' !in name && '"' !in value
    ensures Split(Quoted(name, value) + rest, '"') == [name, value] + Split(rest, '"')
  {
    var inner := value + "\"" + rest;
    SplitCut(value, rest, '"');
    SplitCut(name, inner, '"');
    assert Quoted(name, value) + rest == name + "\"" + inner;
  }

  /** The `Authorization` header value.  When no value holds a `"`, cutting
      the header at its quotes gives back the five values in order, each after
      its parameter name. */
  function AuthorizationHeader(mchId: string, nonceStr: string, signature: string, timestamp: string, serial: string): (h: string)
    ensures '"' !in mchId && '"' !in nonceStr && '"' !in signature && '"' !in timestamp && '"' !in serial ==>
              Split(h, '"') == ["WECHATPAY2-SHA256-RSA2048 mchid=", mchId, ",nonce_str=", nonceStr, ",signature=",
                                signature, ",timestamp=", timestamp, ",serial_no=", serial, ""]
  {
    var lead := "WECHATPAY2-SHA256-RSA2048 mchid=";
    var tail := HeaderTail(nonceStr, signature, timestamp, serial);
    if '"' !in mchId && '"' !in nonceStr && '"' !in signature && '"' !in timestamp && '"' !in serial then
      assert '"' !in lead by { QuoteFreeLead(); }
      SplitQuoted(lead, mchId, tail);
      assert [lead, mchId] + Split(tail, '"')
          == [lead, mchId, ",nonce_str=", nonceStr, ",signature=",
              signature, ",timestamp=", timestamp, ",serial_no=", serial, ""];
      Quoted(lead, mchId) + tail
    else Quoted(lead, mchId) + tail
  }

  /** The authorization scheme and the first parameter name hold no quote. */
  lemma QuoteFreeLead()
    ensures '"' !in "WECHATPAY2-SHA256-RSA2048 mchid="
  {
    var lead := "WECHATPAY2-SHA256-RSA2048 mchid=";
    assert forall i :: 0 <= i < |lead| ==> lead[i] != '"';
  }

  /** Everything of the header after the `mchid` field. */
  function HeaderTail(nonceStr: string, signature: string, timestamp: string, serial: string): (t: string)
    ensures '"' !in nonceStr && '"' !in signature && '"' !in timestamp && '"' !in serial ==>
              Split(t, '"') == [",nonce_str=", nonceStr, ",signature=", signature,
                                ",timestamp=", timestamp, ",serial_no=", serial, ""]
  {
    var rest := TimestampSerial(timestamp, serial);
    if '"' !in nonceStr && '"' !in signature && '"' !in timestamp && '"' !in serial then
      SplitQuoted(",signature=", signature, rest);
      SplitQuoted(",nonce_str=", nonceStr, Quoted(",signature=", signature) + rest);
      Quoted(",nonce_str=", nonceStr) + (Quoted(",signature=", signature) + rest)
    else Quoted(",nonce_str=", nonceStr) + (Quoted(",signature=", signature) + rest)
  }

  /** The `timestamp` and `serial_no` fields that close the header. */
  function TimestampSerial(timestamp: string, serial: string): (t: string)
    ensures '"' !in timestamp && '"' !in serial ==>
              Split(t, '"') == [",timestamp=", timestamp, ",serial_no=", serial, ""]
  {
    var last := Quoted(",serial_no=", serial);
    if '"' !in timestamp && '"' !in serial then
      assert last == last + "";
      SplitQuoted(",serial_no=", serial, "");
      SplitQuoted(",timestamp=", timestamp, last);
      Quoted(",timestamp=", timestamp) + last
    else Quoted(",timestamp=", timestamp) + last
  }

  datatype SignedRequest = SignedRequest(authorization: string, timestamp: string, nonceStr: string)

  /** `signRequest(verb, urlPath, body)` at clock reading `nowMs` with the fresh
      nonce `nonceStr`: the header carries the signature of the request message. */
  function SignRequest(mchId: string, serial: string, verb: string, urlPath: string, body: string,
                       nowMs: int, nonceStr: string, sign: string -> string): (r: SignedRequest)
    ensures r.nonceStr == nonceStr
    ensures r.timestamp == UnixSeconds(nowMs)
    ensures nowMs >= 0 ==> AllDigits(r.timestamp) && ParseDigits(r.timestamp) == nowMs / 1000
    ensures r.authorization == AuthorizationHeader(mchId, nonceStr,
              sign(Lines([verb, urlPath, r.timestamp, nonceStr, body])), r.timestamp, serial)
  {
    var timestamp := UnixSeconds(nowMs);
    var signature := sign(RequestMessage(verb, urlPath, timestamp, nonceStr, body));
    SignedRequest(AuthorizationHeader(mchId, nonceStr, signature, timestamp, serial), timestamp, nonceStr)
  }

  datatype PayParams = PayParams(appId: string, timeStamp: string, nonceStr: string,
                                 package: string, signType: string, paySign: string)

  /** `signJsapi(prepayId)`: the parameters the browser hands to the in-app payment call. */
  function SignJsapi(appId: string, nowMs: int, nonceStr: string, prepayId: string, sign: string -> string): (p: PayParams)
    ensures p.appId == appId && p.nonceStr == nonceStr && p.signType == "RSA"
    ensures p.package == "prepay_id=" + prepayId
    ensures p.timeStamp == UnixSeconds(nowMs)
    ensures nowMs >= 0 ==> AllDigits(p.timeStamp) && ParseDigits(p.timeStamp) == nowMs / 1000
    ensures p.paySign == sign(Lines([appId, p.timeStamp, nonceStr, p.package]))
  {
    var timeStamp := UnixSeconds(nowMs);
    PayParams(appId, timeStamp, nonceStr, "prepay_id=" + prepayId, "RSA",
              sign(JsapiMessage(appId, timeStamp, nonceStr, prepayId)))
  }

  /** What the platform-certificate check can answer; `Threw` is the crypto
      call raising (for example on a missing signature header). */
  datatype Verdict = Valid | Invalid | Threw

  /** `verifyNotifySignature(signature, timestamp, nonce, body)` with the
      certificate check `verify`. */
  function VerifyNotifySignature(signature: Option<string>, timestamp: Option<string>, nonce: Option<string>,
                                 body: string, verify: (Option<string>, string) -> Verdict): (v: Verdict)
    ensures v == verify(signature, Lines([HeaderText(timestamp), HeaderText(nonce), body]))
  {
    verify(signature, NotifyMessage(HeaderText(timestamp), HeaderText(nonce), body))
  }
}

=== FILE: supporter_hash.dfy ===
/** The string hash behind the supporter cards' fruit theme and tilt:
    `hash = (hash << 5) - hash + str.charCodeAt(i); hash |= 0` over the UTF-16
    code units of `name + seed`, then `Math.abs`. */
module SupporterHash {
  import opened Text

  const TWO_31: int := 0x8000_0000
  const TWO_32: int := 0x1_0000_0000

  /** ECMAScript ToInt32: wrap an integer into [-2^31, 2^31). */
  function ToInt32(x: int): (r: int)
    ensures -TWO_31 <= r < TWO_31
    ensures (r - x) % TWO_32 == 0
    ensures -TWO_31 <= x < TWO_31 ==> r == x
  {
    var m := x % TWO_32;
    if m >= TWO_31 then m - TWO_32 else m
  }

  /** Integers that agree modulo 2^32 wrap to the same int32. */
  lemma ToInt32Congruent(x: int, y: int)
    requires (x - y) % TWO_32 == 0
    ensures ToInt32(x) == ToInt32(y)
  {
    var k := (x - y) / TWO_32;
    assert x == y + k * TWO_32;
    assert x % TWO_32 == y % TWO_32;
  }

  /** The UTF-16 code units of one character: the character itself below
      U+10000, otherwise a high and a low surrogate that decode back to it. */
  function Utf16(c: char): (u: seq<int>)
    ensures c as int < 0x1_0000 ==> u == [c as int]
    ensures c as int >= 0x1_0000 ==>
              && |u| == 2
              && 0xD800 <= u[0] < 0xDC00 && 0xDC00 <= u[1] < 0xE000
              && (u[0] - 0xD800) * 0x400 + (u[1] - 0xDC00) + 0x1_0000 == c as int
    ensures forall i :: 0 <= i < |u| ==> 0 <= u[i] < 0x1_0000
  {
    var v := c as int;
    if v < 0x1_0000 then [v]
    else [0xD800 + (v - 0x1_0000) / 0x400, 0xDC00 + (v - 0x1_0000) % 0x400]
  }

  /** `str.charCodeAt(0) … charCodeAt(str.length - 1)`: one unit per character
      below U+10000 and a surrogate pair for each character above. */
  function CodeUnits(s: string): (u: seq<int>)
    ensures |s| == 1 ==> u == Utf16(s[0])
    ensures (forall i :: 0 <= i < |s| ==> s[i] as int < 0x1_0000) ==>
              |u| == |s| && forall i :: 0 <= i < |s| ==> u[i] == s[i] as int
    ensures |u| >= |s|
    ensures forall i :: 0 <= i < |u| ==> 0 <= u[i] < 0x1_0000
    decreases |s|
  {
    if |s| == 0 then []
    else
      var rest := CodeUnits(s[1..]);
      assert (forall i :: 0 <= i < |s| ==> s[i] as int < 0x1_0000) ==>
               forall i :: 0 <= i < |s[1..]| ==> s[1..][i] as int < 0x1_0000;
      Utf16(s[0]) + rest
  }

  /** The code units of a concatenation are the code units of its parts. */
  lemma {:induction false} CodeUnitsAppend(a: string, b: string)
    ensures CodeUnits(a + b) == CodeUnits(a) + CodeUnits(b)
    decreases |a|
  {
    if |a| > 0 {
      assert (a + b)[0] == a[0];
      assert (a + b)[1..] == a[1..] + b;
      CodeUnitsAppend(a[1..], b);
    } else {
      assert a + b == b;
    }
  }

  /** One loop step: `(hash << 5) - hash + unit`, then `hash |= 0`.  The shift
      itself wraps `hash * 32` to 32 bits first; the step is the polynomial
      step `31 * hash + unit` wrapped once. */
  function Step(hash: int, unit: int): (r: int)
    ensures r == ToInt32(31 * hash + unit)
    ensures -TWO_31 <= r < TWO_31
  {
    var s := ToInt32(hash * 32);
    ToInt32Congruent(s - hash + unit, 31 * hash + unit);
    ToInt32(s - hash + unit)
  }

  /** The loop over the code units; after any step the hash is a signed 32-bit integer. */
  function Fold(hash: int, units: seq<int>): (r: int)
    ensures |units| == 0 ==> r == hash
    ensures |units| > 0 ==> -TWO_31 <= r < TWO_31
    decreases |units|
  {
    if |units| == 0 then hash else Fold(Step(hash, units[0]), units[1..])
  }

  /** The same polynomial without any wrapping: `31 * acc + unit`, unit by unit. */
  function Poly(acc: int, units: seq<int>): int
    decreases |units|
  {
    if |units| == 0 then acc else Poly(31 * acc + units[0], units[1..])
  }

  /** Starting points that agree modulo 2^32 give polynomials that do. */
  lemma {:induction false} PolyCongruent(a: int, b: int, units: seq<int>)
    requires (a - b) % TWO_32 == 0
    ensures (Poly(a, units) - Poly(b, units)) % TWO_32 == 0
    decreases |units|
  {
    if |units| > 0 {
      StepCongruent(a, b, units[0]);
      PolyCongruent(31 * a + units[0], 31 * b + units[0], units[1..]);
    }
  }

  /** One unwrapped step keeps two hashes congruent modulo 2^32. */
  lemma StepCongruent(a: int, b: int, unit: int)
    requires (a - b) % TWO_32 == 0
    ensures ((31 * a + unit) - (31 * b + unit)) % TWO_32 == 0
  {
    var k := (a - b) / TWO_32;
    assert a - b == k * TWO_32;
    assert (31 * a + unit) - (31 * b + unit) == (31 * k) * TWO_32;
  }

  /** The wrapped loop computes the unwrapped polynomial, wrapped once at the end. */
  lemma {:induction false} FoldIsWrappedPoly(hash: int, units: seq<int>)
    requires -TWO_31 <= hash < TWO_31
    ensures Fold(hash, units) == ToInt32(Poly(hash, units))
    decreases |units|
  {
    if |units| > 0 {
      var next := 31 * hash + units[0];
      FoldIsWrappedPoly(ToInt32(next), units[1..]);
      PolyCongruent(ToInt32(next), next, units[1..]);
      ToInt32Congruent(Poly(ToInt32(next), units[1..]), Poly(next, units[1..]));
    }
  }

  function Abs(x: int): int {
    if x < 0 then -x else x
  }

  /** `hashValue(name, seed)` for a supporter name (a string, so `name || ''`
      is `name`). */
  function HashValue(name: string, seed: nat): (h: int)
    ensures 0 <= h <= TWO_31
    ensures h == Abs(ToInt32(Poly(0, CodeUnits(name + NatToString(seed)))))
  {
    var units := CodeUnits(name + NatToString(seed));
    FoldIsWrappedPoly(0, units);
    Abs(Fold(0, units))
  }

  /** The keys of the eight fruit themes, in list order. */
  const FRUIT_THEMES: seq<string> :=
    ["citrus", "berry", "kiwi", "dragonfruit", "blueberry", "grape", "watermelon", "mango"]

  /** `themeFor(name)`: the theme at `hashValue(name, 557) % 8`. */
  function ThemeFor(name: string): (theme: string)
    ensures theme in FRUIT_THEMES
  {
    FRUIT_THEMES[HashValue(name, 557) % |FRUIT_THEMES|]
  }

  /** `rotationFor(name)`: a tilt in degrees, `hashValue(name, 911) % 60 - 30`. */
  function RotationFor(name: string): (deg: int)
    ensures -30 <= deg <= 29
  {
    HashValue(name, 911) % 60 - 30
  }
}

=== FILE: template.dfy ===
/** `template.replace(/\{\{\s*name\s*\}\}/g, replacement)` as both pages use it:
    the edition template (`{{ n }}`) and the config template (`{{ value }}`).

    A global regular-expression replace scans left to right; where a match
    starts it emits the replacement and resumes after the match, otherwise it
    copies one character.  With a string (not a function) as replacement,
    ECMAScript expands the `$`-patterns of GetSubstitution in it first: `$$`,
    `$&`, `` $` `` and `$'` (the pattern has no capture groups, so `$1`, `$<`
    and every other `$` stay literal). */
module Template {
  import opened Options

  /** The characters matched by `\s`: ECMAScript WhiteSpace and LineTerminator. */
  predicate IsJsSpace(c: char) {
    || c == '\t' || c == '\n' || c == '\U{000B}' || c == '\U{000C}' || c == '\r' || c == ' '
    || c == '\U{00A0}' || c == '\U{1680}' || ('\U{2000}' <= c <= '\U{200A}')
    || c == '\U{2028}' || c == '\U{2029}' || c == '\U{202F}' || c == '\U{205F}'
    || c == '\U{3000}' || c == '\U{FEFF}'
  }

  /** No `{` anywhere, so no placeholder can start in the text. */
  predicate BraceFree(s: string) {
    forall i :: 0 <= i < |s| ==> s[i] != '{'
  }

  /** Every `{` is followed, inside the text, by a character other than `{`:
      no `{{` occurs and the text does not end in `{`, so no placeholder can
      start in it, whatever follows. */
  predicate NoOpener(s: string) {
    forall i :: 0 <= i < |s| && s[i] == '{' ==> i + 1 < |s| && s[i + 1] != '{'
  }

  predicate AllSpaces(s: string) {
    forall i :: 0 <= i < |s| ==> IsJsSpace(s[i])
  }

  /** A placeholder name the greedy `\s*` cannot eat into: it starts with a
      non-space, as `n` and `value` do. */
  predicate ValidName(name: string) {
    |name| > 0 && !IsJsSpace(name[0]) && name[0] != '}'
  }

  /** Length of the maximal run of `\s` characters at the start of `u`. */
  function SpaceRun(u: string): (k: nat)
    ensures k <= |u|
    ensures AllSpaces(u[..k])
    ensures k < |u| ==> !IsJsSpace(u[k])
  {
    if |u| > 0 && IsJsSpace(u[0]) then
      var k := 1 + SpaceRun(u[1..]);
      assert u[..k] == [u[0]] + u[1..][..k - 1];
      k
    else 0
  }

  /** Length of the placeholder match at the very start of `u`, if one starts there. */
  function MatchLen(u: string, name: string): (m: Option<nat>)
    requires ValidName(name)
    ensures m.Some? ==> 4 + |name| <= m.value <= |u|
    ensures m.Some? ==> u[..2] == "{{" && u[m.value - 2..m.value] == "}}"
    ensures |u| == 0 || u[0] != '{' ==> m.None?
  {
    if |u| >= 2 && u[..2] == "{{" then
      var j := 2 + SpaceRun(u[2..]);
      if |u| - j >= |name| && u[j..j + |name|] == name then
        var k := j + |name| + SpaceRun(u[j + |name|..]);
        if |u| - k >= 2 && u[k..k + 2] == "}}" then Some(k + 2) else None
      else None
    else None
  }

  // ---------------------------------------------------------------------------
  // The replacement text of one match

  /** GetSubstitution for a pattern without capture groups: the replacement
      string with `$$`, `$&`, `` $` `` and `$'` expanded. */
  function Expand(repl: string, matched: string, before: string, after: string): (e: string)
    ensures '$' !in repl ==> e == repl
    decreases |repl|
  {
    if |repl| == 0 then ""
    else if repl[0] == '$' && |repl| >= 2 && repl[1] == '$' then "$" + Expand(repl[2..], matched, before, after)
    else if repl[0] == '$' && |repl| >= 2 && repl[1] == '&' then matched + Expand(repl[2..], matched, before, after)
    else if repl[0] == '$' && |repl| >= 2 && repl[1] == '`' then before + Expand(repl[2..], matched, before, after)
    else if repl[0] == '$' && |repl| >= 2 && repl[1] == '\'' then after + Expand(repl[2..], matched, before, after)
    else
      assert forall c :: c in repl[1..] ==> c in repl;
      [repl[0]] + Expand(repl[1..], matched, before, after)
  }

  // ---------------------------------------------------------------------------
  // The whole replace

  /** `t.replace(/\{\{\s*name\s*\}\}/g, repl)` exactly as ECMAScript runs it,
      `$`-patterns included, where `before` is the part of `t` already scanned
      and `u` the part still to scan. */
  function ScanFrom(before: string, u: string, name: string, repl: string): (r: string)
    requires ValidName(name)
    ensures '$' !in repl ==> r == Replace(u, name, repl)
    decreases |u|
  {
    if |u| == 0 then ""
    else match MatchLen(u, name)
      case Some(k) => Expand(repl, u[..k], before, u[k..]) + ScanFrom(before + u[..k], u[k..], name, repl)
      case None => [u[0]] + ScanFrom(before + [u[0]], u[1..], name, repl)
  }

  /** The as-written replace; without a `$` in the replacement it inserts the
      replacement verbatim, as `Replace` does. */
  function ReplaceAsWritten(t: string, name: string, repl: string): (r: string)
    requires ValidName(name)
    ensures '$' !in repl ==> r == Replace(t, name, repl)
  {
    ScanFrom("", t, name, repl)
  }

  /** The replace with the replacement text inserted verbatim at every match:
      what `String(value)` is meant to become. */
  function Replace(t: string, name: string, v: string): (r: string)
    requires ValidName(name)
    ensures BraceFree(t) ==> r == t
    decreases |t|
  {
    if |t| == 0 then ""
    else match MatchLen(t, name)
      case Some(k) => v + Replace(t[k..], name, v)
      case None => [t[0]] + Replace(t[1..], name, v)
  }

  // ---------------------------------------------------------------------------
  // An independent description of the result: templates built from literal
  // text and placeholders

  /** The text `{{<lead><name><trail>}}`. */
  function Placeholder(lead: string, name: string, trail: string): string {
    "{{" + lead + name + trail + "}}"
  }

  datatype Segment = Literal(text: string) | Slot(lead: string, trail: string)

  /** Literal text opens no placeholder, and the padding inside every slot is `\s` only. */
  predicate WellFormed(segs: seq<Segment>) {
    forall i :: 0 <= i < |segs| ==>
      match segs[i]
      case Literal(text) => NoOpener(text)
      case Slot(lead, trail) => AllSpaces(lead) && AllSpaces(trail)
  }

  /** The template text the segments spell. */
  function Render(segs: seq<Segment>, name: string): string
    decreases |segs|
  {
    if |segs| == 0 then ""
    else
      match segs[0]
      case Literal(text) => text + Render(segs[1..], name)
      case Slot(lead, trail) => Placeholder(lead, name, trail) + Render(segs[1..], name)
  }

  /** The text the segments stand for once every slot holds `v`. */
  function Fill(segs: seq<Segment>, v: string): string
    decreases |segs|
  {
    if |segs| == 0 then ""
    else
      match segs[0]
      case Literal(text) => text + Fill(segs[1..], v)
      case Slot(_, _) => v + Fill(segs[1..], v)
  }

  /** A placeholder with any `\s` padding is matched in full. */
  lemma MatchPlaceholder(lead: string, name: string, trail: string, rest: string)
    requires ValidName(name)
    requires AllSpaces(lead) && AllSpaces(trail)
    ensures MatchLen(Placeholder(lead, name, trail) + rest, name) == Some(|Placeholder(lead, name, trail)|)
  {
    var u := Placeholder(lead, name, trail) + rest;
    PlaceholderOpen(lead, name, trail, rest);
    PlaceholderName(lead, name, trail, rest);
    PlaceholderClose(lead, name, trail, rest);
    MatchLenIntro(u, name, 2 + |lead|, 2 + |lead| + |name| + |trail|);
  }

  /** Soundness of the matcher: what `MatchLen` accepts is `{{`, a run of `\s`,
      the name, a run of `\s` and `}}`, nothing else. */
  lemma MatchLenSound(u: string, name: string)
    requires ValidName(name) && MatchLen(u, name).Some?
    ensures exists lead, trail :: AllSpaces(lead) && AllSpaces(trail)
              && u[..MatchLen(u, name).value] == Placeholder(lead, name, trail)
  {
    var j := 2 + SpaceRun(u[2..]);
    var k := j + |name| + SpaceRun(u[j + |name|..]);
    assert MatchLen(u, name) == Some(k + 2);
    var lead := u[2..j];
    var trail := u[j + |name|..k];
    assert lead == u[2..][..j - 2];
    assert trail == u[j + |name|..][..k - j - |name|];
    SplitFive(u, j, k, |name|);
    assert u[..k + 2] == Placeholder(lead, name, trail);
  }

  /** The five pieces of a match, glued back together. */
  lemma SplitFive(u: string, j: nat, k: nat, n: nat)
    requires 2 <= j && j + n <= k && k + 2 <= |u|
    ensures u[..k + 2] == u[..2] + u[2..j] + u[j..j + n] + u[j + n..k] + u[k..k + 2]
  {
  }

  lemma PlaceholderOpen(lead: string, name: string, trail: string, rest: string)
    requires ValidName(name) && AllSpaces(lead)
    ensures var u := Placeholder(lead, name, trail) + rest;
            |u| >= 2 && u[..2] == "{{" && SpaceRun(u[2..]) == |lead|
  {
    var u := Placeholder(lead, name, trail) + rest;
    assert u[2..] == lead + (name + trail + "}}" + rest);
    SpaceRunOver(lead, name + trail + "}}" + rest);
  }

  lemma PlaceholderName(lead: string, name: string, trail: string, rest: string)
    ensures var u := Placeholder(lead, name, trail) + rest;
            |u| >= 2 + |lead| + |name| && u[2 + |lead|..2 + |lead| + |name|] == name
  {
    var u := Placeholder(lead, name, trail) + rest;
    assert u[2 + |lead|..] == name + trail + "}}" + rest;
  }

  lemma PlaceholderClose(lead: string, name: string, trail: string, rest: string)
    requires AllSpaces(trail)
    ensures var u := Placeholder(lead, name, trail) + rest;
            var k := 2 + |lead| + |name| + |trail|;
            && |u| >= k + 2
            && SpaceRun(u[2 + |lead| + |name|..]) == |trail|
            && u[k..k + 2] == "}}"
  {
    var u := Placeholder(lead, name, trail) + rest;
    var k := 2 + |lead| + |name| + |trail|;
    assert u[2 + |lead| + |name|..] == trail + ("}}" + rest);
    SpaceRunOver(trail, "}}" + rest);
    assert u[k..] == "}}" + rest;
  }

  /** The three steps of the match, taken one at a time. */
  lemma MatchLenIntro(u: string, name: string, j: nat, k: nat)
    requires ValidName(name)
    requires |u| >= 2 && u[..2] == "{{"
    requires j == 2 + SpaceRun(u[2..])
    requires |u| - j >= |name| && u[j..j + |name|] == name
    requires k == j + |name| + SpaceRun(u[j + |name|..])
    requires |u| - k >= 2 && u[k..k + 2] == "}}"
    ensures MatchLen(u, name) == Some(k + 2)
  {
  }

  /** A run of spaces followed by a non-space is measured exactly. */
  lemma {:induction false} SpaceRunOver(sp: string, rest: string)
    requires AllSpaces(sp)
    requires |rest| > 0 && !IsJsSpace(rest[0])
    ensures SpaceRun(sp + rest) == |sp|
    decreases |sp|
  {
    if |sp| > 0 {
      assert (sp + rest)[1..] == sp[1..] + rest;
      SpaceRunOver(sp[1..], rest);
    } else {
      assert sp + rest == rest;
    }
  }

  /** Where no placeholder starts, the character is copied and the scan moves on by one. */
  lemma ReplaceCons(c: char, w: string, name: string, v: string)
    requires ValidName(name)
    requires MatchLen([c] + w, name).None?
    ensures Replace([c] + w, name, v) == [c] + Replace(w, name, v)
  {
    var u := [c] + w;
    assert u[0] == c;
    assert u[1..] == w;
  }

  lemma SeqAssoc<T>(x: seq<T>, y: seq<T>, z: seq<T>)
    ensures x + (y + z) == (x + y) + z
  {
  }

  /** Literal text that opens no placeholder passes through the replace unchanged. */
  lemma {:induction false} ReplaceLiteral(a: string, rest: string, name: string, v: string)
    requires ValidName(name)
    requires NoOpener(a)
    ensures Replace(a + rest, name, v) == a + Replace(rest, name, v)
    decreases |a|
  {
    if |a| == 0 {
      assert a + rest == rest;
    } else {
      var tail := a[1..];
      var w := tail + rest;
      assert NoOpener(tail) by {
        forall i | 0 <= i < |tail| && tail[i] == '{' ensures i + 1 < |tail| && tail[i + 1] != '{' {
          assert tail[i] == a[i + 1];
        }
      }
      assert a + rest == [a[0]] + w;
      assert MatchLen([a[0]] + w, name).None? by {
        if a[0] == '{' {
          assert ([a[0]] + w)[1] == a[1] != '{';
        }
      }
      ReplaceCons(a[0], w, name, v);
      ReplaceLiteral(tail, rest, name, v);
      SeqAssoc([a[0]], tail, Replace(rest, name, v));
      assert [a[0]] + tail == a;
    }
  }

  /** Every placeholder of a well-formed template is replaced by `v`, and all
      other text is kept, in order. */
  lemma {:induction false} ReplaceRendered(segs: seq<Segment>, name: string, v: string)
    requires ValidName(name)
    requires WellFormed(segs)
    ensures Replace(Render(segs, name), name, v) == Fill(segs, v)
    decreases |segs|
  {
    if |segs| > 0 {
      assert WellFormed(segs[1..]) by {
        forall i | 0 <= i < |segs[1..]|
          ensures match segs[1..][i]
                  case Literal(text) => NoOpener(text)
                  case Slot(lead, trail) => AllSpaces(lead) && AllSpaces(trail)
        {
          assert segs[1..][i] == segs[i + 1];
        }
      }
      ReplaceRendered(segs[1..], name, v);
      match segs[0]
      case Literal(text) =>
        ReplaceLiteral(text, Render(segs[1..], name), name, v);
      case Slot(lead, trail) =>
        var p := Placeholder(lead, name, trail);
        var u := p + Render(segs[1..], name);
        MatchPlaceholder(lead, name, trail, Render(segs[1..], name));
        assert u[|p|..] == Render(segs[1..], name);
    }
  }

  /** The replacement `$&` stands for the matched text, so the as-written
      replace puts the placeholder `{{value}}` back where it was. */
  lemma AmpersandEchoesMatch()
    ensures ReplaceAsWritten("{{value}}", "value", "$&") == "{{value}}"
  {
    var t := "{{value}}";
    MatchPlaceholder("", "value", "", "");
    assert Placeholder("", "value", "") + "" == t;
    assert t[9..] == "";
    assert Expand("$&", t, "", "") == t + Expand("", t, "", "");
    assert ScanFrom("", t, "value", "$&") == t + ScanFrom(t, "", "value", "$&");
  }

  /** The verbatim replace inserts `$&` itself in place of `{{value}}`. */
  lemma ReplaceFillsSlot()
    ensures Replace("{{value}}", "value", "$&") == "$&"
  {
    var t := "{{value}}";
    MatchPlaceholder("", "value", "", "");
    assert Placeholder("", "value", "") + "" == t;
    assert t[9..] == "";
  }
}

=== FILE: text.dfy ===
/** String helpers shared by the whole model: the decimal rendering of
    integers (`String(n)`, `n.toString()`), its inverse, `String.prototype.split`
    on a single character with its inverse `join`, and `padStart`. */
module Text {

  predicate IsDigit(c: char) {
    '0' <= c <= '9'
  }

  predicate AllDigits(s: string) {
    forall i :: 0 <= i < |s| ==> IsDigit(s[i])
  }

  function DigitChar(d: nat): (c: char)
    requires d < 10
    ensures IsDigit(c) && c as int - '0' as int == d
  {
    (d + '0' as int) as char
  }

  function DigitValue(c: char): nat
    requires IsDigit(c)
  {
    c as int - '0' as int
  }

  /** The decimal text of a natural number, without leading zeros. */
  function NatToString(n: nat): (r: string)
    ensures |r| >= 1
    ensures AllDigits(r)
    ensures (r[0] == '0') <==> (n == 0)
    ensures n < 10 <==> |r| == 1
    decreases n
  {
    if n < 10 then [DigitChar(n)] else NatToString(n / 10) + [DigitChar(n % 10)]
  }

  /** The decimal text of an integer, with a leading minus sign when negative. */
  function IntToString(i: int): (r: string)
    ensures |r| >= 1
    ensures i >= 0 ==> r == NatToString(i)
    ensures i < 0 ==> r == "-" + NatToString(-i)
  {
    if i < 0 then "-" + NatToString(-i) else NatToString(i)
  }

  /** Reads a string of decimal digits back as a number (leading zeros allowed). */
  function ParseDigits(s: string): nat
    requires AllDigits(s)
    decreases |s|
  {
    if |s| == 0 then 0 else 10 * ParseDigits(s[..|s| - 1]) + DigitValue(s[|s| - 1])
  }

  /** Reading the decimal text of `n` gives back `n`. */
  lemma {:induction false} ParseNatToString(n: nat)
    ensures ParseDigits(NatToString(n)) == n
    decreases n
  {
    if n >= 10 {
      var s := NatToString(n);
      assert s[..|s| - 1] == NatToString(n / 10);
      ParseNatToString(n / 10);
    }
  }

  /** A leading zero does not change the value of a digit string. */
  lemma {:induction false} ParseLeadingZero(s: string)
    requires AllDigits(s)
    ensures AllDigits("0" + s)
    ensures ParseDigits("0" + s) == ParseDigits(s)
    decreases |s|
  {
    var t := "0" + s;
    if |s| > 0 {
      assert t[..|t| - 1] == "0" + s[..|s| - 1];
      ParseLeadingZero(s[..|s| - 1]);
    }
  }

  /** Leading zeros do not change the value of a digit string. */
  lemma {:induction false} ParseLeadingZeros(k: nat, s: string)
    requires AllDigits(s)
    ensures AllDigits(Repeat('0', k) + s)
    ensures ParseDigits(Repeat('0', k) + s) == ParseDigits(s)
    decreases k
  {
    if k > 0 {
      ParseLeadingZeros(k - 1, s);
      assert Repeat('0', k) + s == "0" + (Repeat('0', k - 1) + s);
      ParseLeadingZero(Repeat('0', k - 1) + s);
    } else {
      assert Repeat('0', k) + s == s;
    }
  }

  function Repeat(c: char, k: nat): (r: string)
    ensures |r| == k
    ensures forall i :: 0 <= i < k ==> r[i] == c
  {
    if k == 0 then "" else [c] + Repeat(c, k - 1)
  }

  /** `s.padStart(width, fill)` for a one-character fill string. */
  function PadStart(s: string, width: nat, fill: char): (r: string)
    ensures |s| >= width ==> r == s
    ensures |r| == if |s| >= width then |s| else width
    ensures r[|r| - |s|..] == s
    ensures forall i :: 0 <= i < |r| - |s| ==> r[i] == fill
  {
    if |s| >= width then s else Repeat(fill, width - |s|) + s
  }

  // ---------------------------------------------------------------------------
  // split / join on a single separator character

  /** `s.split(sep)` for a one-character separator: the maximal separator-free
      pieces of `s`, in order, with empty pieces kept. */
  function Split(s: string, sep: char): (r: seq<string>)
    ensures |r| >= 1
    ensures forall i :: 0 <= i < |r| ==> sep !in r[i]
    decreases |s|
  {
    if |s| == 0 then [""]
    else
      var rest := Split(s[1..], sep);
      if s[0] == sep then [""] + rest else [[s[0]] + rest[0]] + rest[1..]
  }

  /** The inverse of `Split`: the pieces glued back with `sep` between them. */
  function Join(parts: seq<string>, sep: char): string
    requires |parts| >= 1
    decreases |parts|
  {
    if |parts| == 1 then parts[0] else parts[0] + [sep] + Join(parts[1..], sep)
  }

  lemma {:induction false} JoinSplit(s: string, sep: char)
    ensures Join(Split(s, sep), sep) == s
    decreases |s|
  {
    if |s| > 0 {
      var rest := Split(s[1..], sep);
      JoinSplit(s[1..], sep);
      if s[0] != sep {
        if |rest| > 1 {
          assert ([[s[0]] + rest[0]] + rest[1..])[1..] == rest[1..];
          assert Join(rest, sep) == rest[0] + [sep] + Join(rest[1..], sep);
        }
      }
    }
  }

  lemma {:induction false} SplitJoin(parts: seq<string>, sep: char)
    requires |parts| >= 1
    requires forall i :: 0 <= i < |parts| ==> sep !in parts[i]
    ensures Split(Join(parts, sep), sep) == parts
    decreases |parts|, |parts[0]|
  {
    if |parts[0]| > 0 {
      var p := parts[0];
      var shorter := [p[1..]] + parts[1..];
      assert Join(parts, sep)[1..] == Join(shorter, sep) by {
        if |parts| > 1 {
          assert shorter[1..] == parts[1..];
        }
      }
      assert p[0] != sep by { assert p[0] in p; }
      assert forall i :: 0 <= i < |shorter| ==> sep !in shorter[i] by {
        forall i | 0 <= i < |shorter|
          ensures sep !in shorter[i]
        {
          if i == 0 {
            assert forall c :: c in p[1..] ==> c in p;
          } else {
            assert shorter[i] == parts[i];
          }
        }
      }
      SplitJoin(shorter, sep);
      assert [p[0]] + p[1..] == p;
    } else if |parts| > 1 {
      assert Join(parts, sep) == [sep] + Join(parts[1..], sep);
      assert ([sep] + Join(parts[1..], sep))[1..] == Join(parts[1..], sep);
      SplitJoin(parts[1..], sep);
      assert [""] + parts[1..] == parts;
    }
  }

  /** Splitting at a separator that was placed between two strings splits each
      of them separately. */
  lemma {:induction false} SplitAround(a: string, b: string, sep: char)
    ensures Split(a + [sep] + b, sep) == Split(a, sep) + Split(b, sep)
    decreases |a|
  {
    if |a| == 0 {
      assert a + [sep] + b == [sep] + b;
      assert ([sep] + b)[1..] == b;
    } else {
      SplitAround(a[1..], b, sep);
      SplitAroundStep(a, b, sep);
    }
  }

  /** One character of `a` taken off the front of `SplitAround`. */
  lemma SplitAroundStep(a: string, b: string, sep: char)
    requires |a| > 0
    requires Split(a[1..] + [sep] + b, sep) == Split(a[1..], sep) + Split(b, sep)
    ensures Split(a + [sep] + b, sep) == Split(a, sep) + Split(b, sep)
  {
    var s := a + [sep] + b;
    assert s[1..] == a[1..] + [sep] + b;
    assert s[0] == a[0];
    ConsSplit(s, Split(a[1..], sep), Split(b, sep), sep);
  }

  /** `Split` of a non-empty text whose tail splits into `front + back`. */
  lemma ConsSplit(s: string, front: seq<string>, back: seq<string>, sep: char)
    requires |s| > 0 && |front| >= 1
    requires Split(s[1..], sep) == front + back
    ensures s[0] == sep ==> Split(s, sep) == [""] + front + back
    ensures s[0] != sep ==> Split(s, sep) == [[s[0]] + front[0]] + front[1..] + back
  {
    assert (front + back)[0] == front[0];
    assert (front + back)[1..] == front[1..] + back;
  }

  /** A piece without the separator is not cut at all. */
  lemma {:induction false} SplitNoSep(s: string, sep: char)
    requires sep !in s
    ensures Split(s, sep) == [s]
    decreases |s|
  {
    if |s| > 0 {
      assert sep !in s[1..];
      SplitNoSep(s[1..], sep);
      assert [s[0]] + s[1..] == s;
    }
  }

  /** Cutting at the first separator splits off the separator-free piece before it. */
  lemma SplitCut(a: string, b: string, sep: char)
    requires sep !in a
    ensures Split(a + [sep] + b, sep) == [a] + Split(b, sep)
  {
    SplitAround(a, b, sep);
    SplitNoSep(a, sep);
  }

  /** `Math.max(a, b)` on integers. */
  function Max(a: int, b: int): (m: int)
    ensures m >= a && m >= b && (m == a || m == b)
  {
    if a >= b then a else b
  }

  predicate NoNewline(s: string) {
    '\n' !in s
  }
}

=== FILE: weekly.dfy ===
/** The weekly challenge clock shared by the two landing-page scripts: the next
    Friday 12:00 UTC start, the 52-hour event window, the countdown parts,
    the two-digit padding, the edition number and the texts derived from it.

    Instants are integer milliseconds since 1970-01-01T00:00:00Z.  The UTC day
    of an instant is `t / MS_DAY` (floor division) and its UTC weekday is
    `(day + 4) % 7`, since 1970-01-01 was a Thursday. */
module Weekly {
  import opened Options
  import opened Text
  import Template

  const MS_SECOND: int := 1000
  const MS_MINUTE: int := 60 * MS_SECOND
  const MS_HOUR: int := 60 * MS_MINUTE
  const MS_DAY: int := 24 * MS_HOUR
  const WEEK_MS: int := 7 * MS_DAY
  const EVENT_DURATION_MS: int := 52 * MS_HOUR
  /** Friday. */
  const START_WEEKDAY: int := 5
  /** 20:00 Asia/Shanghai. */
  const START_HOUR_UTC: int := 12
  /** Day number of 2025-10-17, the Friday of the first edition. */
  const BASE_DAY: int := 20378
  /** `Date.UTC(2025, 9, 17, 12, 0, 0, 0)`. */
  const BASE_START: int := BASE_DAY * MS_DAY + START_HOUR_UTC * MS_HOUR

  /** `getUTCDate`-level day number of an instant. */
  function UtcDay(t: int): int {
    t / MS_DAY
  }

  /** `getUTCDay()`: 0 is Sunday, 5 is Friday. */
  function UtcWeekday(t: int): int {
    (UtcDay(t) + 4) % 7
  }

  /** `Date.UTC(y, m, d, START_HOUR_UTC, 0, 0, 0)` for the date whose day number is `day`. */
  function StartHourOf(day: int): int {
    day * MS_DAY + START_HOUR_UTC * MS_HOUR
  }

  /** An instant at which an edition starts: a Friday, 12:00:00.000 UTC. */
  predicate IsStartInstant(t: int) {
    t % MS_DAY == START_HOUR_UTC * MS_HOUR && UtcWeekday(t) == START_WEEKDAY
  }

  lemma StartHourOfFacts(day: int)
    ensures StartHourOf(day) % MS_DAY == START_HOUR_UTC * MS_HOUR
    ensures UtcDay(StartHourOf(day)) == day
  {
  }

  /** The start instants are exactly the whole weeks before and after the first edition. */
  lemma StartInstantsAreWeekly(t: int)
    ensures IsStartInstant(t) <==> (t - BASE_START) % WEEK_MS == 0
  {
    var d := t / MS_DAY;
    var x := t % MS_DAY;
    assert t == d * MS_DAY + x;
    if IsStartInstant(t) {
      var k := (d - BASE_DAY) / 7;
      assert (d + 4) % 7 == 5;
      assert d - BASE_DAY == 7 * k;
      assert t - BASE_START == k * WEEK_MS;
    }
    if (t - BASE_START) % WEEK_MS == 0 {
      var k := (t - BASE_START) / WEEK_MS;
      assert t == (BASE_DAY + 7 * k) * MS_DAY + START_HOUR_UTC * MS_HOUR;
      StartHourOfFacts(BASE_DAY + 7 * k);
    }
  }

  lemma StartInstantShift(t: int, k: int)
    requires IsStartInstant(t)
    ensures IsStartInstant(t + k * WEEK_MS)
  {
    StartInstantsAreWeekly(t);
    StartInstantsAreWeekly(t + k * WEEK_MS);
  }

  /** `computeUpcomingStart(now)`: today at 12:00 UTC moved forward to Friday;
      on a Friday at or after 12:00 UTC, the Friday after. */
  function UpcomingStart(now: int): (r: int)
    ensures IsStartInstant(r)
    ensures now < r <= now + WEEK_MS
    ensures r - WEEK_MS <= now
  {
    var day := UtcDay(now);
    var delta0 := START_WEEKDAY - UtcWeekday(now);
    var delta := if delta0 < 0 then delta0 + 7 else delta0;
    var start := StartHourOf(day) + delta * MS_DAY;
    assert start == StartHourOf(day + delta);
    StartHourOfFacts(day + delta);
    if delta == 0 && now >= start then
      StartInstantShift(start, 1);
      start + 7 * MS_DAY
    else start
  }

  /** Only one start instant lies in the week ending at the upcoming start. */
  lemma UpcomingStartUnique(now: int, t: int)
    requires IsStartInstant(t)
    requires t - WEEK_MS <= now < t
    ensures t == UpcomingStart(now)
  {
    var r := UpcomingStart(now);
    StartInstantsAreWeekly(t);
    StartInstantsAreWeekly(r);
    var a := (t - BASE_START) / WEEK_MS;
    var b := (r - BASE_START) / WEEK_MS;
    assert t == BASE_START + a * WEEK_MS;
    assert r == BASE_START + b * WEEK_MS;
    assert -WEEK_MS < t - r < WEEK_MS;
    assert a == b;
  }

  datatype Mode = Running | Upcoming

  datatype Window = Window(mode: Mode, start: int, end: int)

  /** `getWindow(now)`: the edition that started a week before the upcoming
      start while it lasts, otherwise the upcoming edition. */
  function GetWindow(now: int): (w: Window)
    ensures w.end - w.start == EVENT_DURATION_MS
    ensures IsStartInstant(w.start)
    ensures w.mode == Running <==>
              UpcomingStart(now) - WEEK_MS <= now < UpcomingStart(now) - WEEK_MS + EVENT_DURATION_MS
    ensures w.mode == Running ==> w.start == UpcomingStart(now) - WEEK_MS && w.start <= now < w.end
    ensures w.mode == Upcoming ==> w.start == UpcomingStart(now) && now < w.start
  {
    var upcoming := UpcomingStart(now);
    var previousStart := upcoming - WEEK_MS;
    var previousEnd := previousStart + EVENT_DURATION_MS;
    StartInstantShift(upcoming, -1);
    if previousStart <= now < previousEnd then Window(Running, previousStart, previousEnd)
    else Window(Upcoming, upcoming, upcoming + EVENT_DURATION_MS)
  }

  /** An instant inside some edition's 52 hours has that edition running. */
  lemma RunningWhileInsideAnEdition(now: int, s: int)
    requires IsStartInstant(s)
    requires s <= now < s + EVENT_DURATION_MS
    ensures GetWindow(now) == Window(Running, s, s + EVENT_DURATION_MS)
  {
    StartInstantShift(s, 1);
    UpcomingStartUnique(now, s + WEEK_MS);
  }

  /** An instant outside every edition's 52 hours waits for the first start after it. */
  lemma UpcomingOutsideEditions(now: int, s: int)
    requires GetWindow(now).mode == Upcoming
    requires IsStartInstant(s)
    ensures !(s <= now < s + EVENT_DURATION_MS)
    ensures now < s ==> GetWindow(now).start <= s
  {
    if s <= now < s + EVENT_DURATION_MS {
      RunningWhileInsideAnEdition(now, s);
    }
    if now < s {
      var r := UpcomingStart(now);
      StartInstantsAreWeekly(s);
      StartInstantsAreWeekly(r);
      var a := (s - BASE_START) / WEEK_MS;
      var b := (r - BASE_START) / WEEK_MS;
      assert s == BASE_START + a * WEEK_MS;
      assert r == BASE_START + b * WEEK_MS;
      assert b <= a;
    }
  }

  // ---------------------------------------------------------------------------
  // Countdown parts

  /** JavaScript's `%`: the remainder takes the sign of the dividend. */
  function JsRem(a: int, b: int): (r: int)
    requires b > 0
    ensures a >= 0 ==> r == a % b
    ensures a < 0 ==> -b < r <= 0
    ensures a < 0 ==> r == a - b * -((-a) / b)
  {
    if a >= 0 then a % b else -((-a) % b)
  }

  datatype Parts = Parts(days: int, hours: int, minutes: int, seconds: int)

  /** The `Math.max(0, Math.floor(...))` decomposition of a millisecond difference. */
  function Decompose(diff: int): (p: Parts)
    ensures diff >= 0 ==> p.days >= 0 && 0 <= p.hours < 24 && 0 <= p.minutes < 60 && 0 <= p.seconds < 60
    ensures diff >= 0 ==>
              p.days * MS_DAY + p.hours * MS_HOUR + p.minutes * MS_MINUTE + p.seconds * MS_SECOND
              == diff - diff % MS_SECOND
    ensures diff < 0 ==> p == Parts(0, 0, 0, 0)
  {
    var p := Parts(
      Max(0, diff / MS_DAY),
      Max(0, JsRem(diff, MS_DAY) / MS_HOUR),
      Max(0, JsRem(diff, MS_HOUR) / MS_MINUTE),
      Max(0, JsRem(diff, MS_MINUTE) / MS_SECOND));
    if diff >= 0 then
      RecomposeParts(diff);
      p
    else p
  }

  lemma RecomposeParts(diff: int)
    requires diff >= 0
    ensures (diff / MS_DAY) * MS_DAY + (diff % MS_DAY / MS_HOUR) * MS_HOUR
            + (diff % MS_HOUR / MS_MINUTE) * MS_MINUTE + (diff % MS_MINUTE / MS_SECOND) * MS_SECOND
            == diff - diff % MS_SECOND
    ensures diff % MS_DAY / MS_HOUR < 24 && diff % MS_HOUR / MS_MINUTE < 60 && diff % MS_MINUTE / MS_SECOND < 60
  {
    assert MS_DAY == 86400000 && MS_HOUR == 3600000 && MS_MINUTE == 60000 && MS_SECOND == 1000;
    var d := diff / 86400000;
    var r1 := diff % 86400000;
    var h := r1 / 3600000;
    var r2 := r1 % 3600000;
    var m := r2 / 60000;
    var r3 := r2 % 60000;
    var s := r3 / 1000;
    var r4 := r3 % 1000;
    assert diff % 3600000 == r2 by {
      assert diff == (24 * d + h) * 3600000 + r2;
    }
    assert diff % 60000 == r3 by {
      assert diff == (1440 * d + 60 * h + m) * 60000 + r3;
    }
    assert diff % 1000 == r4 by {
      assert diff == (86400 * d + 3600 * h + 60 * m + s) * 1000 + r4;
    }
  }

  datatype Tick = Tick(window: Window, target: int, parts: Parts, edition: int)

  /** One `update()` at clock reading `now`.  When the target is already due
      the script re-reads the clock (`later`) for a fresh window, but keeps
      measuring from `now`. */
  function Update(now: int, later: int): (t: Tick)
    ensures t.window == GetWindow(now)
    ensures t.window.mode == Running ==> t.target == t.window.end
    ensures t.window.mode == Upcoming ==> t.target == t.window.start
    ensures t.target > now
    ensures 0 <= t.parts.hours < 24 && 0 <= t.parts.minutes < 60 && 0 <= t.parts.seconds < 60
    ensures t.parts.days >= 0
    ensures t.parts.days * MS_DAY + t.parts.hours * MS_HOUR + t.parts.minutes * MS_MINUTE
            + t.parts.seconds * MS_SECOND == (t.target - now) - (t.target - now) % MS_SECOND
    ensures t.edition == Edition(t.window.start) && t.edition >= 1
  {
    var first := GetWindow(now);
    var firstTarget := if first.mode == Running then first.end else first.start;
    var window := if now >= firstTarget then GetWindow(later) else first;
    var target := if window.mode == Running then window.end else window.start;
    Tick(window, target, Decompose(target - now), Edition(window.start))
  }

  /** The re-read clock never matters: the first target is always in the future. */
  lemma UpdateIgnoresSecondReading(now: int, later: int)
    ensures Update(now, later) == Update(now, now)
  {
  }

  // ---------------------------------------------------------------------------
  // Texts

  /** `pad(n)`: `String(n).padStart(2, '0')`. */
  function Pad(n: nat): (r: string)
    ensures |r| == Max(2, |NatToString(n)|)
    ensures r[|r| - |NatToString(n)|..] == NatToString(n)
    ensures forall i :: 0 <= i < |r| - |NatToString(n)| ==> r[i] == '0'
    ensures n >= 10 ==> r == NatToString(n)
    ensures AllDigits(r) && ParseDigits(r) == n
  {
    var d := NatToString(n);
    var r := PadStart(d, 2, '0');
    ParseNatToString(n);
    ParseLeadingZeros(Max(2, |d|) - |d|, d);
    assert r == Repeat('0', Max(2, |d|) - |d|) + d;
    r
  }

  /** The edition number of the edition starting at `start`, never below 1. */
  function Edition(start: int): (e: int)
    ensures e >= 1
    ensures start >= BASE_START ==> e == (start - BASE_START) / WEEK_MS + 1
    ensures start < BASE_START ==> e == 1
  {
    Max(1, (start - BASE_START) / WEEK_MS + 1)
  }

  /** The edition starting `k` weeks after the first is number `k + 1`. */
  lemma EditionCountsWeeks(k: nat)
    ensures Edition(BASE_START + k * WEEK_MS) == k + 1
  {
  }

  /** Consecutive editions (from the first on) are numbered consecutively. */
  lemma EditionNextWeek(s: int)
    requires s >= BASE_START
    ensures Edition(s + WEEK_MS) == Edition(s) + 1
  {
    assert (s + WEEK_MS - BASE_START) / WEEK_MS == (s - BASE_START) / WEEK_MS + 1;
  }

  /** The navigation label `" · 第" + edition + "期"`. */
  function NavText(edition: nat): (r: string)
    ensures |r| == |NatToString(edition)| + 5
    ensures r[..4] == " · 第" && r[|r| - 1] == '期'
    ensures AllDigits(r[4..|r| - 1]) && ParseDigits(r[4..|r| - 1]) == edition
  {
    var r := " · 第" + NatToString(edition) + "期";
    assert r[4..|r| - 1] == NatToString(edition);
    ParseNatToString(edition);
    r
  }

  /** The `data-edition-template` rewrite: `None` leaves the node alone (no or
      empty template); otherwise every `{{ n }}` becomes the edition's digits. */
  function ApplyEditionTemplate(template: Option<string>, edition: nat): (r: Option<string>)
    ensures r.None? <==> template.None? || template.value == ""
    ensures r.Some? ==> r.value == Template.Replace(template.value, "n", NatToString(edition))
  {
    if template.None? || template.value == "" then None
    else
      var digits := NatToString(edition);
      assert '$' !in digits by {
        assert forall i :: 0 <= i < |digits| ==> digits[i] != '$';
      }
      Some(Template.ReplaceAsWritten(template.value, "n", digits))
  }

  /** A well-formed edition template gets the edition's digits in every slot
      and keeps all its other text. */
  lemma EditionTemplateFills(segs: seq<Template.Segment>, edition: nat)
    requires Template.WellFormed(segs)
    requires Template.Render(segs, "n") != ""
    ensures ApplyEditionTemplate(Some(Template.Render(segs, "n")), edition)
            == Some(Template.Fill(segs, NatToString(edition)))
  {
    Template.ReplaceRendered(segs, "n", NatToString(edition));
  }
}
